=== FILE: README.md ===
# Russian name declension engine — a Dafny model

This project models the rule engine that declines Russian personal names by rule
tables (`src/problem.ts`). The engine:

- normalises loosely typed case and gender keys onto codes (cases 1..6, genders 1, 2, 4);
- tests suffixes and prefixes with `endsWith` and `startsWith`;
- interprets modification scripts (`applyMod`): `.` does nothing, `-` drops the last
  character, any other character is appended;
- picks the first eligible rule (`findExactRule`), filtering by tag, by gender
  (ANDROGYNOUS rules serve everybody) and by pattern;
- infers a gender from a name (`getGenderByRule`, `getGenderByRuleSet`), only when exactly
  one gender key matches, with exceptions before suffixes;
- declines a name (`findRule`, `getModByIdx`, `applyRule`, `inclineByRules`) segment by
  hyphen-separated segment, with exception rules before suffix rules.

Files and modules:

| file | module | contents |
|---|---|---|
| `wrappers.dfy` | `Wrappers` | `Option`, standing for JavaScript's `null`/`undefined` |
| `constants.dfy` | `Constants` | case and gender codes, the `Key` type of loosely typed keys, the three normalisers |
| `strings.dfy` | `Strings` | `EndsWith`, `StartsWith`, lower-casing, `split('-')` / `join('-')`, the two match predicates |
| `mods.dfy` | `Mods` | the modification interpreter and its algebra (composition, normal form) |
| `rules.dfy` | `Rules` | declension rules, the tag/gender/pattern filters, `FindExactRule`, `GetModByIdx`, `ApplyRule` |
| `gender.dfy` | `Gender` | gender tables, `GetGenderByRule`, `GetGenderByRuleSet` |
| `declension.dfy` | `Declension` | rule sets, `FindRule`, per-segment declension, `InclineByRules` |
| `fixtures.dfy` | `Fixtures` | the concrete cases of `src/mastering.test.ts`, proved over the model |

Modelling choices:

- A JavaScript key that may be a string, a number or null is `Key = Name(string) | Code(int) | Null`.
- A normaliser's `null` is `None`.
- The `TypeError` that `applyMod` raises when `getModByIdx` returns `undefined` is modelled as a
  `None` result of `ApplyRule`. `InclineByRules` propagates that `None`.
- The `{ firstWord: isFirstWord }` tag object becomes the list of its truthy keys (`TagList`).
- A gender table (an object from gender key to pattern array) becomes a sequence of
  `GenderEntry(key, patterns)` in `Object.keys` order. `patterns == None` stands for a value
  that is not an array.
- The match callbacks are Dafny function values: `ExactMatch`, `SuffixMatch` and `ExceptionMatch`.

## Model

| member | source | states |
|---|---|---|
| Constants.GetGenderConst | src/problem.ts:21-35 | a result is a gender code and is named by the key, as a code or as its name; each gender code and each gender name gives that code |
| Constants.GetDeclensionConst | src/problem.ts:191-214 | a result is a case code (1..6) and the key is that code or that case's name; every case code and every case name gives its code |
| Constants.GetDeclensionStr | src/problem.ts:216-239 | defined on exactly the keys `getDeclensionConst` accepts, and gives the lower-case name of the case that function yields |
| Constants.DeclensionStrOfConst | src/problem.ts:191-239 | naming the normalised key gives the same as naming the key itself |
| Constants.CaseNamesRoundTrip | src/problem.ts:191-239 | each case code maps to its name, and the name maps back to the code |
| Constants.GenderNamesRoundTrip | src/problem.ts:21-35 | each gender code and gender name normalises to that code |
| Constants.NullIsUnknown | src/problem.ts:32-34 | null is neither a case nor a gender |
| Strings.EndsWith | src/problem.ts:12-15 | the empty search always matches; a match is never longer than the string |
| Strings.EndsWithConcat | src/problem.ts:12-15 | every `x + t` ends with `t` |
| Strings.EndsWithSplits | src/problem.ts:12-15 | a string ending with `t` is a prefix followed by `t` |
| Strings.StartsWithNonPositive | src/problem.ts:17-19 | a zero or negative position searches from the start, as a missing one does |
| Strings.StartsWithAt | src/problem.ts:17-19 | a positive position `p` searches the rest of the string from `p` on, or the empty rest when `p` is past the end |
| Strings.StartsWith | src/problem.ts:17-19 | true exactly when the search is empty or is the slice of the string at the start position |
| Strings.StartsWithConcat | src/problem.ts:17-19 | every `x + y` starts with `x` |
| Strings.LowerPointwise | src/problem.ts:41 | character `i` of the lower-cased string is character `i` of the input, lower-cased |
| Strings.LowerIdempotent | src/problem.ts:41 | lower-casing twice is lower-casing once |
| Strings.Split | src/problem.ts:72 | a split has at least one segment and no segment contains a hyphen |
| Strings.JoinSplit | src/problem.ts:72 | joining the segments of a split with `-` gives back the string |
| Strings.SplitJoin | src/problem.ts:89 | splitting a join of hyphen-free segments gives back the segments |
| Strings.SplitCount | src/problem.ts:72 | a string has one more segment than hyphens |
| Mods.ApplyMod | src/problem.ts:175-189 | the result is at most as long as the string and the script together; its partners `ApplyModNormalForm` and `ApplyModCompose` state what it computes |
| Mods.ApplyModProvenance | src/problem.ts:175-189 | every character of the result is from the input or is a literal of the script |
| Mods.ApplyModKeepsHyphenFree | src/problem.ts:175-189 | the interpreter never introduces a hyphen |
| Mods.ApplyModCompose | src/problem.ts:175-189 | running `m1 + m2` is running `m1` and then `m2` |
| Mods.ApplyModNoOp | src/problem.ts:179-180 | the script `.` leaves every string unchanged |
| Mods.ApplyModDrop | src/problem.ts:181-183 | `-` removes exactly the last character, and leaves the empty string empty |
| Mods.ApplyModAppend | src/problem.ts:184-185 | any other character is appended |
| Mods.ApplyModNormalForm | src/problem.ts:175-189 | every script acts as "drop the same number of trailing characters, then append the same text", whatever the input |
| Mods.ApplyModLiteral | src/problem.ts:175-189 | a script without `.` and `-` appends itself |
| Mods.ApplyModDropsThenAppend | src/problem.ts:175-189 | `k` hyphens followed by an ending strip `k` characters and append the ending |
| Rules.FindCommonTag | src/problem.ts:120 | a found tag is declared and requested, and no declared tag before it is requested; none exactly when no declared tag is requested |
| Rules.TagsAdmitNonEmptyLabels | src/problem.ts:119-123 | with non-empty labels, a tagged rule passes exactly when some declared tag is requested |
| Rules.FindExactRule | src/problem.ts:115-138 | a found rule is in the table and passes the tag, gender and pattern filters; null exactly when no rule passes them all |
| Rules.FindExactRuleFirstMatch | src/problem.ts:116-135 | the first eligible rule in table order is the one returned |
| Rules.UntaggedRequestSkipsTaggedRules | src/problem.ts:119-123 | with no requested tags a tagged rule is never returned |
| Rules.FindExactRuleUntagged | src/problem.ts:115-138 | with no requested tags, removing all tagged rules changes nothing |
| Rules.GetModByIdx | src/problem.ts:140-145 | `mods[i]` for an index in range; `undefined` exactly at `i == mods.length`; `.` without mods or past that |
| Rules.ApplyRule | src/problem.ts:147-173 | NOMINATIVE and unknown cases leave the string; GENITIVE..PREPOSITIONAL apply mod 0..4; the TypeError happens exactly when that index equals the number of mods; no mods or fewer leave the string |
| Rules.ApplyRuleKeepsHyphenFree | src/problem.ts:147-189 | a hyphen-free segment stays hyphen-free after a rule is applied |
| Gender.MatchingKeys | src/problem.ts:57-60 | no more keys than entries; each key is that of a matching entry, and the key of every matching entry is listed |
| Gender.GetGenderByRule | src/problem.ts:56-66 | a result is always a gender code; its partners `GenderByRuleSole`, `GenderByRuleAmbiguous`, `GenderByRuleNoMatch` and `GenderByRuleDetermined` state the "exactly one key" rule |
| Gender.MatchingKeysSingle | src/problem.ts:57-62 | when exactly one key is listed, it is the key of the one matching entry |
| Gender.GenderByRuleSole | src/problem.ts:56-66 | exactly one matching key gives that key's normalised gender |
| Gender.GenderByRuleAmbiguous | src/problem.ts:61-63 | two matching keys give null |
| Gender.GenderByRuleNoMatch | src/problem.ts:61-63 | no matching key gives null |
| Gender.GenderByRuleDetermined | src/problem.ts:56-66 | a determined gender comes from the one key that matches |
| Gender.ExceptionMatch | src/problem.ts:43-48 | a `-p` pattern tests that the name ends with `p`; any other pattern tests equality |
| Gender.GetGenderByRuleSet | src/problem.ts:37-54 | an empty name or a missing rule set gives null; a result is always a gender code |
| Gender.ExceptionsOverrideSuffixes | src/problem.ts:42-50 | a sole exception match on a key that names a gender decides the gender, whatever the suffixes say |
| Gender.GenderFromSuffixesOtherwise | src/problem.ts:42-53 | when no exception key is the sole match with a gender name, the suffix table decides |
| Gender.AmbiguousSuffixesGiveNull | src/problem.ts:51-53 | two matching suffix keys give null |
| Gender.GenderByRuleSetDetermined | src/problem.ts:37-66 | a determined gender is a sole match of the exceptions or, failing that, of the suffixes |
| Declension.FindRule | src/problem.ts:92-113 | an empty string gives null; a found rule passes the gender and tag filters and is an exception equal to the lower-cased string or a suffix rule with a pattern the string ends with |
| Declension.ExceptionsTakePrecedence | src/problem.ts:105-108 | when an exception rule is eligible, the result is the exceptions' first match and the suffixes are not consulted |
| Declension.FindRuleFallsBackToSuffixes | src/problem.ts:110-112 | otherwise the result is the suffixes' first match, or null without suffixes |
| Declension.FindRuleIgnoresTaggedRules | src/problem.ts:98-111 | without tags, a lookup finds the same rule once all tagged rules are removed |
| Declension.DeclineSegment | src/problem.ts:76-87 | a segment with no rule found is kept unchanged; a found rule is applied to the segment; the segment fails exactly when a rule is found, the case is oblique and the rule has exactly as many mods as the case's index; hyphen-free segments stay hyphen-free; NOMINATIVE and unknown cases keep the segment |
| Declension.DeclineSegmentWithoutRule | src/problem.ts:78-94 | an empty segment, or one for which no exception and no suffix rule is eligible, is kept unchanged |
| Declension.DeclineAll | src/problem.ts:75-88 | one result per segment; NOMINATIVE and unknown cases keep every segment |
| Declension.Collect | src/problem.ts:75-89 | all values when every segment succeeded, in order; none as soon as one failed |
| Declension.CollectSegmentsFails | src/problem.ts:75-89 | the segments' results fail to collect exactly when some segment's declension fails |
| Declension.InclineByRules | src/problem.ts:68-90 | the TypeError happens exactly when some segment's rule selects an `undefined` modification; its partners `InclineNominativeIsIdentity`, `InclinePreservesSegments` and `InclineBySegment` state the output |
| Declension.InclineNominativeIsIdentity | src/problem.ts:68-90 | NOMINATIVE or an unknown case returns the input unchanged |
| Declension.InclinePreservesSegments | src/problem.ts:68-90 | the output has as many hyphen-separated segments as the input |
| Declension.InclineBySegment | src/problem.ts:75-89 | segment `k` of the output is segment `k` of the input declined alone, with `firstWord` only on segment 0 of a multi-segment name |
| Declension.SingleWordIgnoresTaggedRules | src/problem.ts:77-81 | a name without a hyphen is declined as if no rule had tags |
| Fixtures.DeclensionConstFixtures | src/mastering.test.ts:27-51 | every case name and code gives its code; null and `strange` give null |
| Fixtures.DeclensionStrFixtures | src/mastering.test.ts:53-76 | every case name and code gives the case name; null and `strange` give null |
| Fixtures.GenderConstFixtures | src/mastering.test.ts:277-295 | every gender name and code gives its code; `unknown` and null give null |
| Fixtures.StringPredicateFixtures | src/mastering.test.ts:221-275 | the seven `endsWith` cases and the `startsWith` cases without a position |
| Fixtures.StartsWithPositionFixture | src/mastering.test.ts:264-266 | `a` is found at position 9 of `Checking a specific position` |
| Fixtures.ApplyModLiteralFixtures | src/mastering.test.ts:79-91 | `applyMod("test", ".")` is `test` and `applyMod("test", "ABC")` is `testABC` |
| Fixtures.ApplyModDeletionFixtures | src/mastering.test.ts:84-86 | `applyMod("test", "-")` is `tes` and `applyMod("test", "--")` is `te` |
| Fixtures.ApplyModMixedFixture | src/mastering.test.ts:84-88 | `applyMod("test", "---ABC")` is `tABC` |
| Fixtures.GetModByIdxFixtures | src/mastering.test.ts:360-372 | `getModByIdx` gives `c`, `.`, and `undefined` on the three test inputs |
| Fixtures.ApplyRuleNominative | src/mastering.test.ts:97-98 | the `мама` rule leaves `мама` for NOMINATIVE |
| Fixtures.ApplyRuleGenitive | src/mastering.test.ts:97-99 | the `мама` rule gives `мамы` for GENITIVE |
| Fixtures.ApplyRuleDative | src/mastering.test.ts:97-100 | the `мама` rule gives `маме` for DATIVE |
| Fixtures.ApplyRuleAccusative | src/mastering.test.ts:97-101 | the `мама` rule gives `маму` for ACCUSATIVE |
| Fixtures.ApplyRuleInstrumental | src/mastering.test.ts:97-102 | the `мама` rule gives `мамой` for INSTRUMENTAL |
| Fixtures.ApplyRulePrepositional | src/mastering.test.ts:96-103 | the `мама` rule gives `мамЕ` for PREPOSITIONAL |
| Fixtures.FindExactRuleMatchFnFixture | src/mastering.test.ts:114-123 | the pattern filter picks the rule with `в` for `ввв`, the one with `б` for `ббб`, and nothing for `ффф` |
| Fixtures.FindExactRuleGenderFixture | src/mastering.test.ts:125-133 | a MALE request skips the tagged rule and picks the untagged MALE rule; a FEMALE request picks the FEMALE rule |
| Fixtures.FindExactRuleTagFixture | src/mastering.test.ts:135-143 | a `firstWord` request picks the tagged rule; another tag skips it |
| Fixtures.FindExactRuleNotFoundFixture | src/mastering.test.ts:108-112 | a FEMALE rule is not found for a MALE request |
| Fixtures.FindExactRuleAndrogynousFixture | src/mastering.test.ts:145-151 | an ANDROGYNOUS rule is found for ANDROGYNOUS, MALE and FEMALE requests |
| Fixtures.FindRuleFixtures | src/mastering.test.ts:154-188 | `лев` and `ЛЕВ` find the exception; `ярослав` and `ЯРОСЛАВ` find the suffix rule; `""` finds nothing |
| Fixtures.InclineLevGenitive | src/mastering.test.ts:209 | `лев` in GENITIVE is `льва` |
| Fixtures.InclineLevDative | src/mastering.test.ts:210 | `лев` in DATIVE is `льву` |
| Fixtures.InclineLevAccusative | src/mastering.test.ts:211 | `лев` in ACCUSATIVE is `льва` |
| Fixtures.InclineVyacheslavInstrumental | src/mastering.test.ts:212 | `вячеслав` in INSTRUMENTAL is `вячеславом` |
| Fixtures.InclineVyacheslavPrepositional | src/mastering.test.ts:213 | `вячеслав` in PREPOSITIONAL is `вячеславе` |
| Fixtures.InclineLevLevDative | src/mastering.test.ts:215-217 | `лев-лев` in DATIVE is `льву-льву` |
| Fixtures.GenderEmptyName | src/mastering.test.ts:309-311 | the empty name gives null |
| Fixtures.GenderDarwin | src/mastering.test.ts:313-315 | `Дарвин` is ANDROGYNOUS by the exceptions |
| Fixtures.GenderAdilaga | src/mastering.test.ts:317-320 | `адилага` is MALE by the `-ага` exception |
| Fixtures.GenderOlga | src/mastering.test.ts:317-320 | `ольга` is FEMALE by the suffixes |
| Fixtures.GenderPilevin | src/mastering.test.ts:322-325 | `Пилевин` is MALE by the suffixes |
| Fixtures.GenderPilevina | src/mastering.test.ts:322-325 | `Пилевина` is FEMALE by the suffixes |

## Left out

- Unicode `toLowerCase` (src/problem.ts:41, 96) is modelled only for ASCII `A`..`Z` and the Cyrillic capitals U+0400..U+042F. Other characters are left unchanged. Full Unicode case mapping, including characters whose lower case has a different length, is not modelled.
- JavaScript strings are UTF-16 code units, while Dafny characters are Unicode scalar values. The two agree on the Basic Multilingual Plane, which covers every character the rule tables use.
- `findRule` and `inclineByRules` with a null `ruleSet` throw as soon as a non-empty segment is looked up. `RuleSet` is therefore not optional in the model. `getGenderByRuleSet`, which checks for null, takes an `Option`.
- JavaScript dynamic typing is not modelled:
  - keys are strings, integers or null, never other objects, `NaN` or fractions;
  - the `startsWith` position is an integer or absent;
  - `rule.test` is always a list, and a missing list is the empty one;
  - rule genders are integers.
- Names and strings are always strings. A null or undefined `name` (which `!name` at src/problem.ts:38 maps to null) or `str` cannot be expressed; `""` is the only falsy name the model has.
- The tag object of `findRule` (src/problem.ts:98-103) is taken as the list of its truthy keys. Only `{ firstWord: ... }` is ever built.
- `Object.keys` order and key uniqueness (src/problem.ts:57) are inputs of the model: a gender table is a sequence whose keys are assumed distinct.
- Strings.EndsWith: its own contract states only the empty-search and length facts. The characterisation "`s` ends with `t` exactly when `s` is some `x + t`" is split over the lemmas `EndsWithConcat` and `EndsWithSplits`.
- Gender.GetGenderByRule: its own contract states only that a result is a gender code. The "exactly one key" rule is stated by the lemmas `GenderByRuleSole`, `GenderByRuleAmbiguous`, `GenderByRuleNoMatch` and `GenderByRuleDetermined`.
- Declension.InclineByRules: its own contract states only when it fails. The output is stated by the lemmas `InclineNominativeIsIdentity`, `InclinePreservesSegments`, `InclineBySegment` and `SingleWordIgnoresTaggedRules`.
- The test-runner configuration (`jest.config.ts`) holds no logic, and the test file is used only as a source of concrete cases. The `getGenderByRule` cases with their own tables (src/mastering.test.ts:328-358) are covered by the general lemmas, not restated as fixtures.

=== FILE: constants.dfy ===
/**
  Case and gender codes, and the normalisers that map loosely typed keys
  (a name string or a numeric code) onto them.
 */
module Constants {
  import opened Wrappers

  const NOMINATIVE: int := 1
  const GENITIVE: int := 2
  const DATIVE: int := 3
  const ACCUSATIVE: int := 4
  const INSTRUMENTAL: int := 5
  const PREPOSITIONAL: int := 6

  const MALE: int := 1
  const FEMALE: int := 2
  const ANDROGYNOUS: int := 4

  /** A loosely typed identifier: a string, a number, or null/undefined. */
  datatype Key = Name(name: string) | Code(code: int) | Null

  /** The key a normaliser's result stands for when it is passed on as a key again. */
  function KeyOf(c: Option<int>): Key {
    match c
    case Some(n) => Code(n)
    case None => Null
  }

  predicate IsCase(c: int) {
    NOMINATIVE <= c <= PREPOSITIONAL
  }

  predicate IsGender(g: int) {
    g == MALE || g == FEMALE || g == ANDROGYNOUS
  }

  /** The case names in code order: `CaseNames[c - 1]` names case code `c`. */
  const CaseNames: seq<string> :=
    ["nominative", "genitive", "dative", "accusative", "instrumental", "prepositional"]

  function CaseName(c: int): string
    requires IsCase(c)
  {
    CaseNames[c - 1]
  }

  /** The gender names as a table from code to name. */
  const GenderNames: map<int, string> := map[MALE := "male", FEMALE := "female", ANDROGYNOUS := "androgynous"]

  function GenderName(g: int): string
    requires IsGender(g)
  {
    GenderNames[g]
  }

  /** `getGenderConst`: a gender name or a gender code gives that code; anything else gives null. */
  function GetGenderConst(key: Key): (r: Option<int>)
    ensures r.Some? ==> IsGender(r.value) && (key == Code(r.value) || key == Name(GenderName(r.value)))
    ensures key.Code? && IsGender(key.code) ==> r == Some(key.code)
    ensures forall g :: IsGender(g) && key == Name(GenderName(g)) ==> r == Some(g)
  {
    match key
    case Name(n) =>
      if n == "male" then Some(MALE)
      else if n == "female" then Some(FEMALE)
      else if n == "androgynous" then Some(ANDROGYNOUS)
      else None
    case Code(c) =>
      if c == MALE then Some(MALE)
      else if c == FEMALE then Some(FEMALE)
      else if c == ANDROGYNOUS then Some(ANDROGYNOUS)
      else None
    case Null => None
  }

  /** `getDeclensionConst`: a case name or a case code gives that code; anything else gives null. */
  function GetDeclensionConst(key: Key): (r: Option<int>)
    ensures r.Some? ==> IsCase(r.value) && (key == Code(r.value) || key == Name(CaseName(r.value)))
    ensures key.Code? && IsCase(key.code) ==> r == Some(key.code)
    ensures forall c :: IsCase(c) && key == Name(CaseName(c)) ==> r == Some(c)
  {
    match key
    case Name(n) =>
      if n == "nominative" then Some(NOMINATIVE)
      else if n == "genitive" then Some(GENITIVE)
      else if n == "dative" then Some(DATIVE)
      else if n == "accusative" then Some(ACCUSATIVE)
      else if n == "instrumental" then Some(INSTRUMENTAL)
      else if n == "prepositional" then Some(PREPOSITIONAL)
      else None
    case Code(c) =>
      if c == NOMINATIVE then Some(NOMINATIVE)
      else if c == GENITIVE then Some(GENITIVE)
      else if c == DATIVE then Some(DATIVE)
      else if c == ACCUSATIVE then Some(ACCUSATIVE)
      else if c == INSTRUMENTAL then Some(INSTRUMENTAL)
      else if c == PREPOSITIONAL then Some(PREPOSITIONAL)
      else None
    case Null => None
  }

  /** `getDeclensionStr`: the lower-case case name for the same keys `getDeclensionConst` accepts. */
  function GetDeclensionStr(key: Key): (r: Option<string>)
    ensures r.Some? <==> GetDeclensionConst(key).Some?
    ensures r.Some? ==> r.value == CaseName(GetDeclensionConst(key).value)
  {
    match key
    case Name(n) =>
      if n == "nominative" then Some("nominative")
      else if n == "genitive" then Some("genitive")
      else if n == "dative" then Some("dative")
      else if n == "accusative" then Some("accusative")
      else if n == "instrumental" then Some("instrumental")
      else if n == "prepositional" then Some("prepositional")
      else None
    case Code(c) =>
      if c == NOMINATIVE then Some("nominative")
      else if c == GENITIVE then Some("genitive")
      else if c == DATIVE then Some("dative")
      else if c == ACCUSATIVE then Some("accusative")
      else if c == INSTRUMENTAL then Some("instrumental")
      else if c == PREPOSITIONAL then Some("prepositional")
      else None
    case Null => None
  }

  /** Normalising a key first and naming it afterwards names the same case as naming the key directly. */
  lemma DeclensionStrOfConst(key: Key)
    ensures GetDeclensionStr(KeyOf(GetDeclensionConst(key))) == GetDeclensionStr(key)
  {
  }

  /** Names and codes are in one-to-one correspondence; the name is read back to its code. */
  lemma CaseNamesRoundTrip(c: int)
    requires IsCase(c)
    ensures GetDeclensionConst(Code(c)) == Some(c)
    ensures GetDeclensionConst(Name(CaseName(c))) == Some(c)
    ensures GetDeclensionStr(Code(c)) == Some(CaseName(c))
    ensures GetDeclensionConst(Name(GetDeclensionStr(Code(c)).value)) == Some(c)
  {
  }

  /** A gender code and its name are both read back to that code. */
  lemma GenderNamesRoundTrip(g: int)
    requires IsGender(g)
    ensures GetGenderConst(Code(g)) == Some(g)
    ensures GetGenderConst(Name(GenderName(g))) == Some(g)
  {
  }

  /** Null is never a case or a gender. */
  lemma NullIsUnknown()
    ensures GetDeclensionConst(Null).None? && GetDeclensionStr(Null).None? && GetGenderConst(Null).None?
  {
  }
}

=== FILE: declension.dfy ===
/**
  Declension of a whole name: rule lookup (exceptions before suffixes) and the
  per-segment declension of a hyphenated name.
 */
module Declension {
  import opened Wrappers
  import opened Constants
  import opened Strings
  import opened Mods
  import opened Rules

  /** A declension rule set: whole-name exceptions and suffix rules, each optional. */
  datatype RuleSet = RuleSet(exceptions: Option<seq<DeclensionRule>>, suffixes: Option<seq<DeclensionRule>>)

  const FirstWord: string := "firstWord"

  /** The tag list built from the `{ firstWord: isFirstWord }` tag object: the keys whose value is truthy. */
  function TagList(isFirstWord: bool): seq<string> {
    if isFirstWord then [FirstWord] else []
  }

  /** The first exception rule that matches the lower-cased name exactly. */
  function RuleFromExceptions(rs: RuleSet, lower: string, gender: Option<int>, tags: seq<string>): Option<DeclensionRule> {
    if rs.exceptions.Some? then FindExactRule(rs.exceptions.value, gender, ExactMatch(lower), tags) else None
  }

  /** The first suffix rule that has a pattern the lower-cased name ends with. */
  function RuleFromSuffixes(rs: RuleSet, lower: string, gender: Option<int>, tags: seq<string>): Option<DeclensionRule> {
    if rs.suffixes.Some? then FindExactRule(rs.suffixes.value, gender, SuffixMatch(lower), tags) else None
  }

  /** `findRule(str, gender, ruleSet, tags)`, with `tags` already turned into a list. */
  function FindRule(s: string, gender: Option<int>, ruleSet: RuleSet, tags: seq<string>): (r: Option<DeclensionRule>)
    ensures IsEmpty(s) ==> r.None?
    ensures r.Some? ==> GenderAdmits(r.value, gender) && TagsAdmit(r.value, tags)
    ensures r.Some? ==> || (ruleSet.exceptions.Some? && r.value in ruleSet.exceptions.value && Lower(s) in r.value.test)
                        || (&& ruleSet.suffixes.Some? && r.value in ruleSet.suffixes.value
                            && exists j :: 0 <= j < |r.value.test| && EndsWith(Lower(s), r.value.test[j]))
  {
    if IsEmpty(s) then None
    else
      var lower := Lower(s);
      var fromExceptions := RuleFromExceptions(ruleSet, lower, gender, tags);
      if fromExceptions.Some? then fromExceptions
      else RuleFromSuffixes(ruleSet, lower, gender, tags)
  }

  /** An exception rule that matches decides the rule: the suffix rules are not consulted. */
  lemma ExceptionsTakePrecedence(s: string, gender: Option<int>, ruleSet: RuleSet, tags: seq<string>, i: int)
    requires !IsEmpty(s) && ruleSet.exceptions.Some?
    requires 0 <= i < |ruleSet.exceptions.value|
    requires Eligible(ruleSet.exceptions.value[i], gender, ExactMatch(Lower(s)), tags)
    ensures FindRule(s, gender, ruleSet, tags) == FindExactRule(ruleSet.exceptions.value, gender, ExactMatch(Lower(s)), tags)
    ensures FindRule(s, gender, ruleSet, tags).Some?
    ensures FindRule(s, gender, ruleSet, tags).value in ruleSet.exceptions.value
  {
  }

  /** Otherwise the first matching suffix rule is returned, or null without a suffix table. */
  lemma FindRuleFallsBackToSuffixes(s: string, gender: Option<int>, ruleSet: RuleSet, tags: seq<string>)
    requires !IsEmpty(s)
    requires ruleSet.exceptions.Some? ==>
      forall i :: 0 <= i < |ruleSet.exceptions.value| ==> !Eligible(ruleSet.exceptions.value[i], gender, ExactMatch(Lower(s)), tags)
    ensures ruleSet.suffixes.None? ==> FindRule(s, gender, ruleSet, tags).None?
    ensures ruleSet.suffixes.Some? ==>
      FindRule(s, gender, ruleSet, tags) == FindExactRule(ruleSet.suffixes.value, gender, SuffixMatch(Lower(s)), tags)
  {
  }

  /** The rule set with every tagged rule removed. */
  function UntaggedRuleSet(rs: RuleSet): RuleSet {
    RuleSet(
      if rs.exceptions.Some? then Some(Untagged(rs.exceptions.value)) else None,
      if rs.suffixes.Some? then Some(Untagged(rs.suffixes.value)) else None)
  }

  /** Looked up without tags, a segment finds the same rule when all tagged rules are removed. */
  lemma FindRuleIgnoresTaggedRules(s: string, gender: Option<int>, ruleSet: RuleSet)
    ensures FindRule(s, gender, ruleSet, []) == FindRule(s, gender, UntaggedRuleSet(ruleSet), [])
  {
    if !IsEmpty(s) {
      var lower := Lower(s);
      if ruleSet.exceptions.Some? {
        FindExactRuleUntagged(ruleSet.exceptions.value, gender, ExactMatch(lower));
      }
      if ruleSet.suffixes.Some? {
        FindExactRuleUntagged(ruleSet.suffixes.value, gender, SuffixMatch(lower));
      }
    }
  }

  /** One segment: declined by its rule when one is found, passed through otherwise. */
  function DeclineSegment(part: string, isFirstWord: bool, declension: Option<int>, gender: Option<int>, ruleSet: RuleSet)
    : (r: Option<string>)
    ensures '-' !in part && r.Some? ==> '-' !in r.value
    ensures !IsOblique(declension) ==> r == Some(part)
    ensures var found := FindRule(part, gender, ruleSet, TagList(isFirstWord));
      found.None? ==> r == Some(part)
    ensures var found := FindRule(part, gender, ruleSet, TagList(isFirstWord));
      found.Some? ==> r == ApplyRule(found.value, part, declension)
    ensures var found := FindRule(part, gender, ruleSet, TagList(isFirstWord));
      r.None? <==> found.Some? && IsOblique(declension) && found.value.mods.Some?
                   && |found.value.mods.value| == declension.value - GENITIVE
  {
    match FindRule(part, gender, ruleSet, TagList(isFirstWord))
    case None => Some(part)
    case Some(rule) =>
      ApplyRuleKeepsHyphenFree(rule, part, declension);
      ApplyRule(rule, part, declension)
  }

  /** An empty segment, or one for which no rule is eligible, is kept as it is. */
  lemma DeclineSegmentWithoutRule(part: string, isFirstWord: bool, declension: Option<int>, gender: Option<int>, ruleSet: RuleSet)
    requires !IsEmpty(part) && ruleSet.exceptions.Some? ==> forall i :: 0 <= i < |ruleSet.exceptions.value| ==>
               !Eligible(ruleSet.exceptions.value[i], gender, ExactMatch(Lower(part)), TagList(isFirstWord))
    requires !IsEmpty(part) && ruleSet.suffixes.Some? ==> forall i :: 0 <= i < |ruleSet.suffixes.value| ==>
               !Eligible(ruleSet.suffixes.value[i], gender, SuffixMatch(Lower(part)), TagList(isFirstWord))
    ensures DeclineSegment(part, isFirstWord, declension, gender, ruleSet) == Some(part)
  {
  }

  /** Whether segment `k` of `n` segments is the first word of a multi-segment name. */
  predicate IsFirstWord(k: int, n: int) {
    k == 0 && n > 1
  }

  /** Every segment declined on its own; `None` where the segment raises. */
  function DeclineAll(parts: seq<string>, declension: Option<int>, gender: Option<int>, ruleSet: RuleSet)
    : (r: seq<Option<string>>)
    ensures |r| == |parts|
    ensures forall k :: 0 <= k < |parts| && '-' !in parts[k] && r[k].Some? ==> '-' !in r[k].value
    ensures !IsOblique(declension) ==> forall k :: 0 <= k < |parts| ==> r[k] == Some(parts[k])
  {
    seq(|parts|, k requires 0 <= k < |parts| => DeclineSegment(parts[k], IsFirstWord(k, |parts|), declension, gender, ruleSet))
  }

  /**
    All the values, or `None` when one is missing: the loop over the segments stops
    at the first segment that raises.
   */
  function Collect<T>(xs: seq<Option<T>>): (r: Option<seq<T>>)
    ensures r.Some? <==> forall k :: 0 <= k < |xs| ==> xs[k].Some?
    ensures r.Some? ==> |r.value| == |xs| && forall k :: 0 <= k < |xs| ==> xs[k] == Some(r.value[k])
  {
    if |xs| == 0 then Some([])
    else
      var rest := Collect(xs[1..]);
      if xs[0].None? || rest.None? then None
      else
        assert forall k :: 1 <= k < |xs| ==> xs[k] == xs[1..][k - 1];
        Some([xs[0].value] + rest.value)
  }

  /**
    `inclineByRules(str, declensionStr, genderStr, ruleSet)`. `None` is the TypeError
    raised when a segment's rule selects an `undefined` modification.
   */
  function InclineByRules(s: string, declensionKey: Key, genderKey: Key, ruleSet: RuleSet): (r: Option<string>)
    ensures r.None? <==>
      exists k :: 0 <= k < |Split(s)| &&
        DeclineSegment(Split(s)[k], IsFirstWord(k, |Split(s)|), GetDeclensionConst(declensionKey), GetGenderConst(genderKey), ruleSet).None?
  {
    var declension := GetDeclensionConst(declensionKey);
    var gender := GetGenderConst(genderKey);
    var parts := Split(s);
    NameSegmentsFail(s, declensionKey, genderKey, ruleSet);
    match Collect(DeclineAll(parts, declension, gender, ruleSet))
    case None => None
    case Some(out) => Some(Join(out))
  }

  /** The segments' results are collected exactly when none of them is missing. */
  lemma CollectSegmentsFails(parts: seq<string>, declension: Option<int>, gender: Option<int>, ruleSet: RuleSet)
    ensures Collect(DeclineAll(parts, declension, gender, ruleSet)).None? <==>
      exists k :: 0 <= k < |parts| && DeclineSegment(parts[k], IsFirstWord(k, |parts|), declension, gender, ruleSet).None?
  {
    var all := DeclineAll(parts, declension, gender, ruleSet);
    if Collect(all).None? {
      var k :| 0 <= k < |all| && all[k].None?;
      assert DeclineSegment(parts[k], IsFirstWord(k, |parts|), declension, gender, ruleSet).None?;
    } else {
      forall k | 0 <= k < |parts|
        ensures DeclineSegment(parts[k], IsFirstWord(k, |parts|), declension, gender, ruleSet).Some?
      {
        assert all[k].Some?;
      }
    }
  }

  /** `CollectSegmentsFails` for the segments of a name and the normalised keys. */
  lemma NameSegmentsFail(s: string, declensionKey: Key, genderKey: Key, ruleSet: RuleSet)
    ensures Collect(DeclineAll(Split(s), GetDeclensionConst(declensionKey), GetGenderConst(genderKey), ruleSet)).None? <==>
      exists k :: 0 <= k < |Split(s)| &&
        DeclineSegment(Split(s)[k], IsFirstWord(k, |Split(s)|), GetDeclensionConst(declensionKey), GetGenderConst(genderKey), ruleSet).None?
  {
    var declension, gender, parts := GetDeclensionConst(declensionKey), GetGenderConst(genderKey), Split(s);
    CollectSegmentsFails(parts, declension, gender, ruleSet);
    if Collect(DeclineAll(parts, declension, gender, ruleSet)).None? {
      var k :| 0 <= k < |parts| && DeclineSegment(parts[k], IsFirstWord(k, |parts|), declension, gender, ruleSet).None?;
      assert DeclineSegment(Split(s)[k], IsFirstWord(k, |Split(s)|), GetDeclensionConst(declensionKey), GetGenderConst(genderKey), ruleSet).None?;
    }
  }

  /** NOMINATIVE, or a case key that names no case, leaves the name as it is. */
  lemma InclineNominativeIsIdentity(s: string, declensionKey: Key, genderKey: Key, ruleSet: RuleSet)
    requires !IsOblique(GetDeclensionConst(declensionKey))
    ensures InclineByRules(s, declensionKey, genderKey, ruleSet) == Some(s)
  {
    var parts := Split(s);
    var out := Collect(DeclineAll(parts, GetDeclensionConst(declensionKey), GetGenderConst(genderKey), ruleSet));
    assert out.Some?;
    assert out.value == parts;
    JoinSplit(s);
  }

  /** A declined name has as many hyphen-separated segments as the input. */
  lemma InclinePreservesSegments(s: string, declensionKey: Key, genderKey: Key, ruleSet: RuleSet)
    requires InclineByRules(s, declensionKey, genderKey, ruleSet).Some?
    ensures |Split(InclineByRules(s, declensionKey, genderKey, ruleSet).value)| == |Split(s)|
  {
    var parts := Split(s);
    var all := DeclineAll(parts, GetDeclensionConst(declensionKey), GetGenderConst(genderKey), ruleSet);
    var out := Collect(all).value;
    assert forall k :: 0 <= k < |out| ==> '-' !in out[k] by {
      forall k | 0 <= k < |out| ensures '-' !in out[k] {
        assert '-' !in parts[k] && all[k] == Some(out[k]);
      }
    }
    SplitJoin(out);
  }

  /**
    Segment `k` of the result is segment `k` of the input declined on its own, with the
    `firstWord` tag requested only for the first segment of a multi-segment name.
   */
  lemma InclineBySegment(s: string, declensionKey: Key, genderKey: Key, ruleSet: RuleSet, k: int)
    requires InclineByRules(s, declensionKey, genderKey, ruleSet).Some?
    requires 0 <= k < |Split(s)|
    ensures |Split(InclineByRules(s, declensionKey, genderKey, ruleSet).value)| == |Split(s)|
    ensures Some(Split(InclineByRules(s, declensionKey, genderKey, ruleSet).value)[k])
         == DeclineSegment(Split(s)[k], k == 0 && |Split(s)| > 1,
                           GetDeclensionConst(declensionKey), GetGenderConst(genderKey), ruleSet)
  {
    InclinePreservesSegments(s, declensionKey, genderKey, ruleSet);
    var parts := Split(s);
    var all := DeclineAll(parts, GetDeclensionConst(declensionKey), GetGenderConst(genderKey), ruleSet);
    var out := Collect(all).value;
    assert forall j :: 0 <= j < |out| ==> '-' !in out[j] by {
      forall j | 0 <= j < |out| ensures '-' !in out[j] {
        assert '-' !in parts[j] && all[j] == Some(out[j]);
      }
    }
    SplitJoin(out);
    assert all[k] == Some(out[k]);
  }

  /** A name without a hyphen is declined as if the rule set had no tagged rules. */
  lemma SingleWordIgnoresTaggedRules(s: string, declensionKey: Key, genderKey: Key, ruleSet: RuleSet)
    requires '-' !in s
    ensures InclineByRules(s, declensionKey, genderKey, ruleSet)
         == InclineByRules(s, declensionKey, genderKey, UntaggedRuleSet(ruleSet))
  {
    SplitSegment(s);
    var declension := GetDeclensionConst(declensionKey);
    var gender := GetGenderConst(genderKey);
    FindRuleIgnoresTaggedRules(s, gender, ruleSet);
    assert !IsFirstWord(0, 1);
    assert DeclineSegment(s, false, declension, gender, ruleSet)
        == DeclineSegment(s, false, declension, gender, UntaggedRuleSet(ruleSet));
    assert DeclineAll([s], declension, gender, ruleSet) == DeclineAll([s], declension, gender, UntaggedRuleSet(ruleSet));
  }
}

=== FILE: fixtures.dfy ===
/** The concrete cases of the repository's test file, stated over the model. */
module Fixtures {
  import opened Wrappers
  import opened Constants
  import opened Strings
  import opened Mods
  import opened Rules
  import opened Gender
  import opened Declension

  lemma DeclensionConstFixtures()
    ensures GetDeclensionConst(Name("nominative")) == Some(NOMINATIVE) && GetDeclensionConst(Code(NOMINATIVE)) == Some(NOMINATIVE)
    ensures GetDeclensionConst(Name("genitive")) == Some(GENITIVE) && GetDeclensionConst(Code(GENITIVE)) == Some(GENITIVE)
    ensures GetDeclensionConst(Name("dative")) == Some(DATIVE) && GetDeclensionConst(Code(DATIVE)) == Some(DATIVE)
    ensures GetDeclensionConst(Name("accusative")) == Some(ACCUSATIVE) && GetDeclensionConst(Code(ACCUSATIVE)) == Some(ACCUSATIVE)
    ensures GetDeclensionConst(Name("instrumental")) == Some(INSTRUMENTAL) && GetDeclensionConst(Code(INSTRUMENTAL)) == Some(INSTRUMENTAL)
    ensures GetDeclensionConst(Name("prepositional")) == Some(PREPOSITIONAL) && GetDeclensionConst(Code(PREPOSITIONAL)) == Some(PREPOSITIONAL)
    ensures GetDeclensionConst(Null).None? && GetDeclensionConst(Name("strange")).None?
  {
  }

  lemma DeclensionStrFixtures()
    ensures GetDeclensionStr(Name("nominative")) == Some("nominative") && GetDeclensionStr(Code(NOMINATIVE)) == Some("nominative")
    ensures GetDeclensionStr(Name("genitive")) == Some("genitive") && GetDeclensionStr(Code(GENITIVE)) == Some("genitive")
    ensures GetDeclensionStr(Name("dative")) == Some("dative") && GetDeclensionStr(Code(DATIVE)) == Some("dative")
    ensures GetDeclensionStr(Name("accusative")) == Some("accusative") && GetDeclensionStr(Code(ACCUSATIVE)) == Some("accusative")
    ensures GetDeclensionStr(Name("instrumental")) == Some("instrumental") && GetDeclensionStr(Code(INSTRUMENTAL)) == Some("instrumental")
    ensures GetDeclensionStr(Name("prepositional")) == Some("prepositional") && GetDeclensionStr(Code(PREPOSITIONAL)) == Some("prepositional")
    ensures GetDeclensionStr(Null).None? && GetDeclensionStr(Name("strange")).None?
  {
  }

  /** `null` and `undefined` are both the `Null` key. */
  lemma GenderConstFixtures()
    ensures GetGenderConst(Name("male")) == Some(MALE)
    ensures GetGenderConst(Name("female")) == Some(FEMALE)
    ensures GetGenderConst(Name("androgynous")) == Some(ANDROGYNOUS)
    ensures GetGenderConst(Code(MALE)) == Some(MALE)
    ensures GetGenderConst(Code(FEMALE)) == Some(FEMALE)
    ensures GetGenderConst(Code(ANDROGYNOUS)) == Some(ANDROGYNOUS)
    ensures GetGenderConst(Name("unknown")).None? && GetGenderConst(Null).None?
  {
  }

  lemma ApplyModDeletionFixtures()
    ensures ApplyMod("test", "-") == "tes"
    ensures ApplyMod("test", "--") == "te"
  {
    assert "-" == Drops(1) + "";
    assert "--" == Drops(2) + "";
    ApplyModDropsThenAppend("test", 1, "");
    ApplyModDropsThenAppend("test", 2, "");
  }

  lemma ApplyModMixedFixture()
    ensures ApplyMod("test", "---ABC") == "tABC"
  {
    assert "---ABC" == Drops(3) + "ABC";
    ApplyModDropsThenAppend("test", 3, "ABC");
    assert DropLast("test", 3) == "t";
  }

  lemma ApplyModLiteralFixtures()
    ensures ApplyMod("test", ".") == "test"
    ensures ApplyMod("test", "ABC") == "testABC"
  {
    ApplyModNoOp("test");
    ApplyModLiteral("test", "ABC");
  }

  lemma StringPredicateFixtures()
    ensures EndsWith("Hello, World", "World")
    ensures EndsWith("Hello", "Hello")
    ensures !EndsWith("Writing tests is awesome", "is")
    ensures EndsWith("Testing an empty string ending", "")
    ensures EndsWith("", "")
    ensures !EndsWith("Hello", "Hello, World!")
    ensures !EndsWith("", "test")
    ensures StartsWith("Hello, World", "Hello", None)
    ensures StartsWith("Testing with an empty search string", "", None)
    ensures !StartsWith("Writing tests is awesome", "is", None)
    ensures !StartsWith("Hello", "Hello, World!", None)
    ensures StartsWith("", "", None)
  {
    assert "Writing tests is awesome"[22..] == "me";
    assert "Writing tests is awesome"[0..2] == "Wr";
  }

  lemma StartsWithPositionFixture()
    ensures StartsWith("Checking a specific position", "a", Some(9))
  {
    assert "Checking a specific position"[9..10] == "a";
  }

  lemma GetModByIdxFixtures()
    ensures GetModByIdx(Some(["a", "b", "c", "d", "e"]), 2) == Some("c")
    ensures GetModByIdx(Some([]), 1) == Some(".")
    ensures GetModByIdx(Some([]), 0).None?
  {
  }

  /** The rule of the `applyRule` test: it has only modifications. */
  const Mama: DeclensionRule := DeclensionRule(0, [], Some(["-ы", "-е", "-у", "-ой", "-Е"]), None)

  /** `мама` with its last letter replaced by an ending. */
  lemma MamaEnding(t: string)
    requires NoOp !in t && Drop !in t
    ensures ApplyMod("мама", [Drop] + t) == "мам" + t
  {
    assert [Drop] + t == Drops(1) + t;
    ApplyModDropsThenAppend("мама", 1, t);
    assert DropLast("мама", 1) == "мам";
  }

  lemma ApplyRuleNominative()
    ensures ApplyRule(Mama, "мама", Some(NOMINATIVE)) == Some("мама")
  {
  }

  lemma ApplyRuleGenitive()
    ensures ApplyRule(Mama, "мама", Some(GENITIVE)) == Some("мамы")
  {
    assert Mama.mods.value[0] == [Drop] + "ы";
    MamaEnding("ы");
    assert "мам" + "ы" == "мамы";
  }

  lemma ApplyRuleDative()
    ensures ApplyRule(Mama, "мама", Some(DATIVE)) == Some("маме")
  {
    assert Mama.mods.value[1] == [Drop] + "е";
    MamaEnding("е");
    assert "мам" + "е" == "маме";
  }

  lemma ApplyRuleAccusative()
    ensures ApplyRule(Mama, "мама", Some(ACCUSATIVE)) == Some("маму")
  {
    assert Mama.mods.value[2] == [Drop] + "у";
    MamaEnding("у");
    assert "мам" + "у" == "маму";
  }

  lemma ApplyRuleInstrumental()
    ensures ApplyRule(Mama, "мама", Some(INSTRUMENTAL)) == Some("мамой")
  {
    assert Mama.mods.value[3] == [Drop] + "ой";
    MamaEnding("ой");
    assert "мам" + "ой" == "мамой";
  }

  lemma ApplyRulePrepositional()
    ensures ApplyRule(Mama, "мама", Some(PREPOSITIONAL)) == Some("мамЕ")
  {
    assert Mama.mods.value[4] == [Drop] + "Е";
    MamaEnding("Е");
    assert "мам" + "Е" == "мамЕ";
  }

  function Always(p: string): bool {
    true
  }

  /** A rule with pattern `а` and no modifications. */
  function RuleA(gender: int, tags: Option<seq<string>>): DeclensionRule {
    DeclensionRule(gender, ["а"], Some([]), tags)
  }

  lemma FindExactRuleGenderFixture()
    ensures
      var rules := [RuleA(MALE, Some([FirstWord])), RuleA(MALE, None), RuleA(FEMALE, None)];
      && FindExactRule(rules, Some(MALE), Always, []) == Some(rules[1])
      && FindExactRule(rules, Some(FEMALE), Always, []) == Some(rules[2])
  {
    var rules := [RuleA(MALE, Some([FirstWord])), RuleA(MALE, None), RuleA(FEMALE, None)];
    assert Always(rules[1].test[0]) && Always(rules[2].test[0]);
    assert !TagsAdmit(rules[0], []);
    FindExactRuleFirstMatch(rules, Some(MALE), Always, [], 1);
    FindExactRuleFirstMatch(rules, Some(FEMALE), Always, [], 2);
  }

  lemma FindExactRuleTagFixture()
    ensures
      var rules := [RuleA(FEMALE, None), RuleA(MALE, Some([FirstWord])), RuleA(MALE, None)];
      && FindExactRule(rules, Some(MALE), Always, [FirstWord]) == Some(rules[1])
      && FindExactRule(rules, Some(MALE), Always, ["someTag"]) == Some(rules[2])
  {
    var rules := [RuleA(FEMALE, None), RuleA(MALE, Some([FirstWord])), RuleA(MALE, None)];
    assert Always(rules[1].test[0]) && Always(rules[2].test[0]);
    assert FindCommonTag([FirstWord], [FirstWord]) == Some(FirstWord);
    assert FindCommonTag([FirstWord], ["someTag"]).None?;
    FindExactRuleFirstMatch(rules, Some(MALE), Always, [FirstWord], 1);
    FindExactRuleFirstMatch(rules, Some(MALE), Always, ["someTag"], 2);
  }

  lemma FindExactRuleAndrogynousFixture()
    ensures FindExactRule([RuleA(ANDROGYNOUS, None)], Some(ANDROGYNOUS), Always, []) == Some(RuleA(ANDROGYNOUS, None))
    ensures FindExactRule([RuleA(ANDROGYNOUS, None)], Some(MALE), Always, []) == Some(RuleA(ANDROGYNOUS, None))
    ensures FindExactRule([RuleA(ANDROGYNOUS, None)], Some(FEMALE), Always, []) == Some(RuleA(ANDROGYNOUS, None))
  {
    assert Always(RuleA(ANDROGYNOUS, None).test[0]);
  }

  lemma FindExactRuleNotFoundFixture()
    ensures FindExactRule([RuleA(FEMALE, None)], Some(MALE), Always, []).None?
  {
  }

  /** The rules of the `matchFn` filter test: patterns `а`, `б` and `в`. */
  const RulesAbv: seq<DeclensionRule> := [DeclensionRule(MALE, ["а", "б"], Some([]), None), DeclensionRule(MALE, ["в"], Some([]), None)]

  lemma AbvFirst(f: string -> bool)
    requires f("б")
    ensures FindExactRule(RulesAbv, Some(MALE), f, []) == Some(RulesAbv[0])
  {
    assert f(RulesAbv[0].test[1]);
  }

  lemma AbvSecond(f: string -> bool)
    requires !f("а") && !f("б") && f("в")
    ensures FindExactRule(RulesAbv, Some(MALE), f, []) == Some(RulesAbv[1])
  {
    assert f(RulesAbv[1].test[0]);
    FindExactRuleFirstMatch(RulesAbv, Some(MALE), f, [], 1);
  }

  lemma AbvNone(f: string -> bool)
    requires !f("а") && !f("б") && !f("в")
    ensures FindExactRule(RulesAbv, Some(MALE), f, []).None?
  {
  }

  lemma FindExactRuleMatchFnFixture()
    ensures FindExactRule(RulesAbv, Some(MALE), SuffixMatch("ввв"), []) == Some(RulesAbv[1])
    ensures FindExactRule(RulesAbv, Some(MALE), SuffixMatch("ббб"), []) == Some(RulesAbv[0])
    ensures FindExactRule(RulesAbv, Some(MALE), SuffixMatch("ффф"), []).None?
  {
    NotEndsWithLast("ввв", "а");
    NotEndsWithLast("ввв", "б");
    AbvSecond(SuffixMatch("ввв"));
    AbvFirst(SuffixMatch("ббб"));
    NotEndsWithLast("ффф", "а");
    NotEndsWithLast("ффф", "б");
    NotEndsWithLast("ффф", "в");
    AbvNone(SuffixMatch("ффф"));
  }

  /** The rule set of the `findRule` and `inclineByRules` tests. */
  const Lev: DeclensionRule := DeclensionRule(MALE, ["лев"], Some(["--ьва", "--ьву", "--ьва", "--ьвом", "--ьве"]), None)
  const BV: DeclensionRule := DeclensionRule(MALE, ["б", "в"], Some(["а", "у", "а", "ом", "е"]), None)
  const LevSet: RuleSet := RuleSet(Some([Lev]), Some([BV]))

  lemma LowerLev()
    ensures Lower("лев") == "лев" && Lower("ЛЕВ") == "лев"
  {
    LowerIs("лев", "лев");
    LowerIs("ЛЕВ", "лев");
  }

  lemma LowerYaroslav()
    ensures Lower("ярослав") == "ярослав"
  {
    LowerIs("ярослав", "ярослав");
  }

  lemma LowerYaroslavUpper()
    ensures Lower("ЯРОСЛАВ") == "ярослав"
  {
    LowerIs("ЯРОСЛАВ", "ярослав");
  }

  lemma LowerVyacheslav()
    ensures Lower("вячеслав") == "вячеслав"
  {
    LowerIs("вячеслав", "вячеслав");
  }

  /** A name whose lower-cased form is `лев` is found among the exceptions. */
  lemma FindRuleLev(s: string, tags: seq<string>)
    requires Lower(s) == "лев"
    ensures FindRule(s, Some(MALE), LevSet, tags) == Some(Lev)
  {
    assert ExactMatch("лев")(Lev.test[0]);
  }

  lemma LevMisses(lower: string, tags: seq<string>)
    requires lower != "лев"
    ensures RuleFromExceptions(LevSet, lower, Some(MALE), tags).None?
  {
    assert !Eligible(Lev, Some(MALE), ExactMatch(lower), tags) by {
      assert Lev.test == ["лев"];
    }
  }

  lemma BVMatches(lower: string, tags: seq<string>)
    requires EndsWith(lower, "в")
    ensures RuleFromSuffixes(LevSet, lower, Some(MALE), tags) == Some(BV)
  {
    FindExactRuleFirstMatch([BV], Some(MALE), SuffixMatch(lower), tags, 0) by {
      assert SuffixMatch(lower)(BV.test[1]);
    }
  }

  /** A name ending in `в` other than `лев` is found among the suffixes. */
  lemma FindRuleBV(s: string, tags: seq<string>)
    requires |s| > 0 && Lower(s) != "лев" && EndsWith(Lower(s), "в")
    ensures FindRule(s, Some(MALE), LevSet, tags) == Some(BV)
  {
    LevMisses(Lower(s), tags);
    BVMatches(Lower(s), tags);
  }

  lemma FindRuleFixtures()
    ensures FindRule("", Some(MALE), LevSet, []).None?
    ensures FindRule("лев", Some(MALE), LevSet, []) == Some(Lev)
    ensures FindRule("ЛЕВ", Some(MALE), LevSet, []) == Some(Lev)
    ensures FindRule("ярослав", Some(MALE), LevSet, []) == Some(BV)
    ensures FindRule("ЯРОСЛАВ", Some(MALE), LevSet, []) == Some(BV)
  {
    LowerLev();
    LowerYaroslav();
    LowerYaroslavUpper();
    FindRuleLev("лев", []);
    FindRuleLev("ЛЕВ", []);
    assert EndsWith("ярослав", "в");
    FindRuleBV("ярослав", []);
    FindRuleBV("ЯРОСЛАВ", []);
  }

  lemma LevMods()
    ensures ApplyMod("лев", "--ьва") == "льва"
    ensures ApplyMod("лев", "--ьву") == "льву"
  {
    assert "--ьва" == Drops(2) + "ьва";
    assert "--ьву" == Drops(2) + "ьву";
    ApplyModDropsThenAppend("лев", 2, "ьва");
    ApplyModDropsThenAppend("лев", 2, "ьву");
    assert DropLast("лев", 2) == "л";
  }

  /** A segment declined by the rule `FindRule` selects for it. */
  lemma ByRule(part: string, first: bool, declension: Option<int>, gender: Option<int>, ruleSet: RuleSet,
               rule: DeclensionRule, out: string)
    requires FindRule(part, gender, ruleSet, TagList(first)) == Some(rule)
    requires ApplyRule(rule, part, declension) == Some(out)
    ensures DeclineSegment(part, first, declension, gender, ruleSet) == Some(out)
  {
  }

  /** A name of one segment is declined as that segment. */
  lemma OneSegment(s: string, declensionKey: Key, genderKey: Key, ruleSet: RuleSet,
                   declension: Option<int>, gender: Option<int>, x: string)
    requires Split(s) == [s]
    requires GetDeclensionConst(declensionKey) == declension && GetGenderConst(genderKey) == gender
    requires DeclineSegment(s, false, declension, gender, ruleSet) == Some(x)
    ensures InclineByRules(s, declensionKey, genderKey, ruleSet) == Some(x)
  {
    assert !IsFirstWord(0, 1);
    var c := Collect(DeclineAll([s], declension, gender, ruleSet));
    assert c.Some? && c.value == [x];
  }

  /** A name of two segments is declined segment by segment, the first as the first word. */
  lemma TwoSegments(s: string, a: string, b: string, declensionKey: Key, genderKey: Key, ruleSet: RuleSet,
                    declension: Option<int>, gender: Option<int>, x: string, y: string)
    requires Split(s) == [a, b]
    requires GetDeclensionConst(declensionKey) == declension && GetGenderConst(genderKey) == gender
    requires DeclineSegment(a, true, declension, gender, ruleSet) == Some(x)
    requires DeclineSegment(b, false, declension, gender, ruleSet) == Some(y)
    ensures InclineByRules(s, declensionKey, genderKey, ruleSet) == Some(Join([x, y]))
  {
    assert IsFirstWord(0, 2) && !IsFirstWord(1, 2);
    var all := DeclineAll([a, b], declension, gender, ruleSet);
    assert all[0] == Some(x) && all[1] == Some(y);
    var c := Collect(all);
    assert c.Some? && c.value == [x, y];
  }

  lemma LevGenitiveRule()
    ensures ApplyRule(Lev, "лев", Some(GENITIVE)) == Some("льва")
  {
    LevMods();
  }

  lemma LevDativeRule()
    ensures ApplyRule(Lev, "лев", Some(DATIVE)) == Some("льву")
  {
    LevMods();
  }

  lemma LevAccusativeRule()
    ensures ApplyRule(Lev, "лев", Some(ACCUSATIVE)) == Some("льва")
  {
    LevMods();
  }

  lemma InclineLevGenitive()
    ensures InclineByRules("лев", Code(GENITIVE), Code(MALE), LevSet) == Some("льва")
  {
    SplitSegment("лев");
    LowerLev();
    FindRuleLev("лев", []);
    LevGenitiveRule();
    ByRule("лев", false, Some(GENITIVE), Some(MALE), LevSet, Lev, "льва");
    OneSegment("лев", Code(GENITIVE), Code(MALE), LevSet, Some(GENITIVE), Some(MALE), "льва");
  }

  lemma InclineLevDative()
    ensures InclineByRules("лев", Code(DATIVE), Code(MALE), LevSet) == Some("льву")
  {
    SplitSegment("лев");
    LowerLev();
    FindRuleLev("лев", []);
    LevDativeRule();
    ByRule("лев", false, Some(DATIVE), Some(MALE), LevSet, Lev, "льву");
    OneSegment("лев", Code(DATIVE), Code(MALE), LevSet, Some(DATIVE), Some(MALE), "льву");
  }

  lemma InclineLevAccusative()
    ensures InclineByRules("лев", Code(ACCUSATIVE), Code(MALE), LevSet) == Some("льва")
  {
    SplitSegment("лев");
    LowerLev();
    FindRuleLev("лев", []);
    LevAccusativeRule();
    ByRule("лев", false, Some(ACCUSATIVE), Some(MALE), LevSet, Lev, "льва");
    OneSegment("лев", Code(ACCUSATIVE), Code(MALE), LevSet, Some(ACCUSATIVE), Some(MALE), "льва");
  }

  lemma VyacheslavRule()
    ensures ApplyRule(BV, "вячеслав", Some(INSTRUMENTAL)) == Some("вячеславом")
  {
    assert BV.mods.value[INSTRUMENTAL - GENITIVE] == "ом";
    assert NoOp !in "ом" && Drop !in "ом";
    ApplyModLiteral("вячеслав", "ом");
    assert "вячеслав" + "ом" == "вячеславом";
  }

  lemma VyacheslavFindRule()
    ensures FindRule("вячеслав", Some(MALE), LevSet, []) == Some(BV)
  {
    LowerVyacheslav();
    assert EndsWith("вячеслав", "в");
    FindRuleBV("вячеслав", []);
  }

  lemma InclineVyacheslavInstrumental()
    ensures InclineByRules("вячеслав", Code(INSTRUMENTAL), Code(MALE), LevSet) == Some("вячеславом")
  {
    SplitSegment("вячеслав");
    VyacheslavFindRule();
    VyacheslavRule();
    ByRule("вячеслав", false, Some(INSTRUMENTAL), Some(MALE), LevSet, BV, "вячеславом");
    OneSegment("вячеслав", Code(INSTRUMENTAL), Code(MALE), LevSet, Some(INSTRUMENTAL), Some(MALE), "вячеславом");
  }

  lemma VyacheslavPrepositionalRule()
    ensures ApplyRule(BV, "вячеслав", Some(PREPOSITIONAL)) == Some("вячеславе")
  {
    assert BV.mods.value[PREPOSITIONAL - GENITIVE] == "е";
    assert NoOp !in "е" && Drop !in "е";
    ApplyModLiteral("вячеслав", "е");
    assert "вячеслав" + "е" == "вячеславе";
  }

  lemma InclineVyacheslavPrepositional()
    ensures InclineByRules("вячеслав", Code(PREPOSITIONAL), Code(MALE), LevSet) == Some("вячеславе")
  {
    SplitSegment("вячеслав");
    VyacheslavFindRule();
    VyacheslavPrepositionalRule();
    ByRule("вячеслав", false, Some(PREPOSITIONAL), Some(MALE), LevSet, BV, "вячеславе");
    OneSegment("вячеслав", Code(PREPOSITIONAL), Code(MALE), LevSet, Some(PREPOSITIONAL), Some(MALE), "вячеславе");
  }

  lemma SplitLevLev()
    ensures Split("лев-лев") == ["лев", "лев"]
  {
    SplitAfterSegment("лев", "лев");
    SplitSegment("лев");
  }

  lemma LevDativeSegments()
    ensures DeclineSegment("лев", true, Some(DATIVE), Some(MALE), LevSet) == Some("льву")
    ensures DeclineSegment("лев", false, Some(DATIVE), Some(MALE), LevSet) == Some("льву")
  {
    LowerLev();
    FindRuleLev("лев", [FirstWord]);
    FindRuleLev("лев", []);
    LevDativeRule();
    ByRule("лев", true, Some(DATIVE), Some(MALE), LevSet, Lev, "льву");
    ByRule("лев", false, Some(DATIVE), Some(MALE), LevSet, Lev, "льву");
  }

  lemma JoinLevLev()
    ensures Join(["льву", "льву"]) == "льву-льву"
  {
    var ps := ["льву", "льву"];
    assert ps[1..] == ["льву"];
    assert "льву" + "-" + "льву" == "льву-льву";
  }

  lemma InclineLevLevDative()
    ensures InclineByRules("лев-лев", Code(DATIVE), Code(MALE), LevSet) == Some("льву-льву")
  {
    SplitLevLev();
    LevDativeSegments();
    TwoSegments("лев-лев", "лев", "лев", Code(DATIVE), Code(MALE), LevSet, Some(DATIVE), Some(MALE), "льву", "льву");
    JoinLevLev();
  }

  /** The gender rule set of the `getGenderByRuleSet` test. */
  const Androgynous: GenderEntry := GenderEntry("androgynous", Some(["дарвин", "грин"]))
  const MaleAga: GenderEntry := GenderEntry("male", Some(["-ага"]))
  const MaleN: GenderEntry := GenderEntry("male", Some(["н"]))
  const FemaleNaGa: GenderEntry := GenderEntry("female", Some(["на", "га"]))
  const NameGenders: GenderRuleSet := GenderRuleSet(Some([Androgynous, MaleAga]), Some([MaleN, FemaleNaGa]))

  lemma NotEndsWithLast(s: string, t: string)
    requires |s| > 0 && |t| > 0 && s[|s| - 1] != t[|t| - 1]
    ensures !EndsWith(s, t)
  {
    if |t| <= |s| {
      assert s[|s| - |t|..][|t| - 1] == s[|s| - 1];
    }
  }

  lemma NoPatternMatches(e: GenderEntry, f: string -> bool)
    requires e.patterns.Some?
    requires forall p :: p in e.patterns.value ==> !f(p)
    ensures !EntryMatches(e, f)
  {
  }

  lemma NoPatternOfTwo(e: GenderEntry, f: string -> bool, a: string, b: string)
    requires e.patterns == Some([a, b]) && !f(a) && !f(b)
    ensures !EntryMatches(e, f)
  {
    assert forall p :: p in e.patterns.value ==> p == a || p == b;
  }

  /** An exception pattern without a leading hyphen matches only the name itself. */
  lemma ExactPatternMisses(lower: string, p: string)
    requires |p| > 0 && p[0] != '-' && p != lower
    ensures !ExceptionMatch(lower)(p)
  {
  }

  lemma EntryHasPattern(e: GenderEntry, f: string -> bool, p: string)
    requires e.patterns.Some? && p in e.patterns.value && f(p)
    ensures EntryMatches(e, f)
  {
    var j :| 0 <= j < |e.patterns.value| && e.patterns.value[j] == p;
  }

  /** In a two-key table, neither key matching gives no determination. */
  /** Two entries that both miss leave no entry the sole match. */
  lemma NoSoleOfTwo(e0: GenderEntry, e1: GenderEntry, f: string -> bool)
    requires !EntryMatches(e0, f) && !EntryMatches(e1, f)
    ensures forall i :: SoleMatch([e0, e1], f, i) ==> GetGenderConst(Name([e0, e1][i].key)).None?
  {
  }

  /** In a two-key table, exactly one key matching gives that key's gender. */
  lemma OneOfTwo(e0: GenderEntry, e1: GenderEntry, f: string -> bool, i: int)
    requires i == 0 || i == 1
    requires EntryMatches([e0, e1][i], f) && !EntryMatches([e0, e1][1 - i], f)
    ensures GetGenderByRule([e0, e1], f) == GetGenderConst(Name([e0, e1][i].key))
  {
    GenderByRuleSole([e0, e1], f, i);
  }

  lemma GenderEmptyName()
    ensures GetGenderByRuleSet("", Some(NameGenders)).None?
  {
  }

  lemma AndrogynousMatches(lower: string)
    requires lower == "дарвин" || lower == "грин"
    ensures EntryMatches(Androgynous, ExceptionMatch(lower))
  {
    EntryHasPattern(Androgynous, ExceptionMatch(lower), lower);
  }

  lemma AndrogynousMisses(lower: string)
    requires lower != "дарвин" && lower != "грин"
    ensures !EntryMatches(Androgynous, ExceptionMatch(lower))
  {
    ExactPatternMisses(lower, "дарвин");
    ExactPatternMisses(lower, "грин");
    NoPatternOfTwo(Androgynous, ExceptionMatch(lower), "дарвин", "грин");
  }

  lemma MaleAgaMatches(lower: string)
    requires EndsWith(lower, "ага")
    ensures EntryMatches(MaleAga, ExceptionMatch(lower))
  {
    assert "-ага"[1..] == "ага";
    EntryHasPattern(MaleAga, ExceptionMatch(lower), "-ага");
  }

  lemma MaleAgaMisses(lower: string)
    requires !EndsWith(lower, "ага")
    ensures !EntryMatches(MaleAga, ExceptionMatch(lower))
  {
    assert "-ага"[1..] == "ага";
    NoPatternMatches(MaleAga, ExceptionMatch(lower));
  }

  /** A name the exception table determines. */
  lemma ByExceptions(name: string, lower: string, g: int)
    requires !IsEmpty(name) && Lower(name) == lower
    requires GetGenderByRule([Androgynous, MaleAga], ExceptionMatch(lower)) == Some(g)
    ensures GetGenderByRuleSet(name, Some(NameGenders)) == Some(g)
  {
  }

  /** A name the exception table leaves open is decided by the suffix table. */
  lemma BySuffixes(name: string, lower: string)
    requires !IsEmpty(name) && Lower(name) == lower
    requires lower != "дарвин" && lower != "грин" && !EndsWith(lower, "ага")
    ensures GetGenderByRuleSet(name, Some(NameGenders)) == GetGenderByRule([MaleN, FemaleNaGa], SuffixMatch(lower))
  {
    AndrogynousMisses(lower);
    MaleAgaMisses(lower);
    NoSoleOfTwo(Androgynous, MaleAga, ExceptionMatch(lower));
    GenderFromSuffixesOtherwise(name, NameGenders);
  }

  lemma DarwinExceptions()
    ensures GetGenderByRule([Androgynous, MaleAga], ExceptionMatch("дарвин")) == Some(ANDROGYNOUS)
  {
    NotEndsWithLast("дарвин", "ага");
    AndrogynousMatches("дарвин");
    MaleAgaMisses("дарвин");
    OneOfTwo(Androgynous, MaleAga, ExceptionMatch("дарвин"), 0);
  }

  lemma LowerDarwin()
    ensures Lower("Дарвин") == "дарвин"
  {
    LowerIs("Дарвин", "дарвин");
  }

  lemma GenderDarwin()
    ensures GetGenderByRuleSet("Дарвин", Some(NameGenders)) == Some(ANDROGYNOUS)
  {
    LowerDarwin();
    DarwinExceptions();
    ByExceptions("Дарвин", "дарвин", ANDROGYNOUS);
  }

  lemma AdilagaExceptions()
    ensures GetGenderByRule([Androgynous, MaleAga], ExceptionMatch("адилага")) == Some(MALE)
  {
    assert "адилага" == "адил" + "ага";
    EndsWithConcat("адил", "ага");
    AndrogynousMisses("адилага");
    MaleAgaMatches("адилага");
    OneOfTwo(Androgynous, MaleAga, ExceptionMatch("адилага"), 1);
  }

  lemma LowerAdilaga()
    ensures Lower("адилага") == "адилага"
  {
    LowerIs("адилага", "адилага");
  }

  lemma GenderAdilaga()
    ensures GetGenderByRuleSet("адилага", Some(NameGenders)) == Some(MALE)
  {
    LowerAdilaga();
    AdilagaExceptions();
    ByExceptions("адилага", "адилага", MALE);
  }

  lemma OlgaSuffixes()
    ensures GetGenderByRule([MaleN, FemaleNaGa], SuffixMatch("ольга")) == Some(FEMALE)
  {
    var g := SuffixMatch("ольга");
    assert "ольга" == "оль" + "га";
    EndsWithConcat("оль", "га");
    NotEndsWithLast("ольга", "н");
    assert "ольга"[3..] != "на" by {
      assert "ольга"[3] != 'н';
    }
    NoPatternMatches(MaleN, g);
    EntryHasPattern(FemaleNaGa, g, "га");
    OneOfTwo(MaleN, FemaleNaGa, g, 1);
  }

  lemma OlgaNotAga()
    ensures !EndsWith("ольга", "ага")
  {
    assert "ольга"[2..] != "ага" by {
      assert "ольга"[2] != 'а';
    }
  }

  lemma LowerOlga()
    ensures Lower("ольга") == "ольга"
  {
    LowerIs("ольга", "ольга");
  }

  lemma GenderOlga()
    ensures GetGenderByRuleSet("ольга", Some(NameGenders)) == Some(FEMALE)
  {
    LowerOlga();
    OlgaNotAga();
    BySuffixes("ольга", "ольга");
    OlgaSuffixes();
  }

  lemma PilevinSuffixes()
    ensures GetGenderByRule([MaleN, FemaleNaGa], SuffixMatch("пилевин")) == Some(MALE)
  {
    var g := SuffixMatch("пилевин");
    assert "пилевин" == "пилеви" + "н";
    EndsWithConcat("пилеви", "н");
    NotEndsWithLast("пилевин", "на");
    NotEndsWithLast("пилевин", "га");
    EntryHasPattern(MaleN, g, "н");
    NoPatternMatches(FemaleNaGa, g);
    OneOfTwo(MaleN, FemaleNaGa, g, 0);
  }

  lemma LowerPilevin()
    ensures Lower("Пилевин") == "пилевин"
  {
    LowerIs("Пилевин", "пилевин");
  }

  lemma GenderPilevin()
    ensures GetGenderByRuleSet("Пилевин", Some(NameGenders)) == Some(MALE)
  {
    LowerPilevin();
    NotEndsWithLast("пилевин", "ага");
    BySuffixes("Пилевин", "пилевин");
    PilevinSuffixes();
  }

  lemma PilevinaSuffixes()
    ensures GetGenderByRule([MaleN, FemaleNaGa], SuffixMatch("пилевина")) == Some(FEMALE)
  {
    var g := SuffixMatch("пилевина");
    assert "пилевина" == "пилеви" + "на";
    EndsWithConcat("пилеви", "на");
    NotEndsWithLast("пилевина", "н");
    EntryHasPattern(FemaleNaGa, g, "на");
    NoPatternMatches(MaleN, g);
    OneOfTwo(MaleN, FemaleNaGa, g, 1);
  }

  lemma PilevinaNotAga()
    ensures !EndsWith("пилевина", "ага")
  {
    assert "пилевина"[5..] != "ага" by {
      assert "пилевина"[6] != 'г';
    }
  }

  lemma LowerPilevina()
    ensures Lower("Пилевина") == "пилевина"
  {
    LowerIs("Пилевина", "пилевина");
  }

  lemma GenderPilevina()
    ensures GetGenderByRuleSet("Пилевина", Some(NameGenders)) == Some(FEMALE)
  {
    LowerPilevina();
    PilevinaNotAga();
    BySuffixes("Пилевина", "пилевина");
    PilevinaSuffixes();
  }
}

=== FILE: gender.dfy ===
/**
  Gender inference from a name: a gender is determined only when exactly one
  key of a gender rule table has a matching pattern, and exception tables are
  consulted before suffix tables.
 */
module Gender {
  import opened Wrappers
  import opened Constants
  import opened Strings

  /** One key of a gender rule table; `patterns == None` is a value that is not an array. */
  datatype GenderEntry = GenderEntry(key: string, patterns: Option<seq<string>>)

  /** A gender rule table, keys in `Object.keys` order. */
  type GenderTable = seq<GenderEntry>

  datatype GenderRuleSet = GenderRuleSet(exceptions: Option<GenderTable>, suffixes: Option<GenderTable>)

  /** The key's value is an array and one of its patterns satisfies the predicate. */
  predicate EntryMatches(e: GenderEntry, matchFn: string -> bool) {
    e.patterns.Some? && exists j :: 0 <= j < |e.patterns.value| && matchFn(e.patterns.value[j])
  }

  /** Entry `i` matches and no other entry does. */
  predicate SoleMatch(rules: GenderTable, matchFn: string -> bool, i: int) {
    && 0 <= i < |rules|
    && EntryMatches(rules[i], matchFn)
    && forall j :: 0 <= j < |rules| && j != i ==> !EntryMatches(rules[j], matchFn)
  }

  /** The keys with a match, in table order. */
  function MatchingKeys(rules: GenderTable, matchFn: string -> bool): (ks: seq<string>)
    ensures |ks| <= |rules|
    ensures forall k :: k in ks ==> exists j :: 0 <= j < |rules| && rules[j].key == k && EntryMatches(rules[j], matchFn)
    ensures forall j :: 0 <= j < |rules| && EntryMatches(rules[j], matchFn) ==> rules[j].key in ks
  {
    if |rules| == 0 then []
    else
      var rest := MatchingKeys(rules[1..], matchFn);
      assert forall j :: 0 <= j < |rules| - 1 ==> rules[1..][j] == rules[j + 1];
      (if EntryMatches(rules[0], matchFn) then [rules[0].key] else []) + rest
  }

  /** `getGenderByRule`: the normalised key when exactly one key matches, else null. */
  function GetGenderByRule(rules: GenderTable, matchFn: string -> bool): (r: Option<int>)
    ensures r.Some? ==> IsGender(r.value)
  {
    var genders := MatchingKeys(rules, matchFn);
    if |genders| != 1 then None else GetGenderConst(Name(genders[0]))
  }

  lemma {:induction false} MatchingKeysNone(rules: GenderTable, matchFn: string -> bool)
    requires forall j :: 0 <= j < |rules| ==> !EntryMatches(rules[j], matchFn)
    ensures MatchingKeys(rules, matchFn) == []
  {
    if |rules| > 0 {
      MatchingKeysNone(rules[1..], matchFn);
    }
  }

  lemma {:induction false} MatchingKeysSole(rules: GenderTable, matchFn: string -> bool, i: int)
    requires SoleMatch(rules, matchFn, i)
    ensures MatchingKeys(rules, matchFn) == [rules[i].key]
  {
    if i == 0 {
      MatchingKeysNone(rules[1..], matchFn);
    } else {
      MatchingKeysSole(rules[1..], matchFn, i - 1);
    }
  }

  lemma {:induction false} MatchingKeysTwo(rules: GenderTable, matchFn: string -> bool, i: int, j: int)
    requires 0 <= i < j < |rules|
    requires EntryMatches(rules[i], matchFn) && EntryMatches(rules[j], matchFn)
    ensures |MatchingKeys(rules, matchFn)| >= 2
  {
    if i == 0 {
      MatchingKeysAtLeastOne(rules[1..], matchFn, j - 1);
    } else {
      MatchingKeysTwo(rules[1..], matchFn, i - 1, j - 1);
    }
  }

  lemma {:induction false} MatchingKeysAtLeastOne(rules: GenderTable, matchFn: string -> bool, i: int)
    requires 0 <= i < |rules| && EntryMatches(rules[i], matchFn)
    ensures |MatchingKeys(rules, matchFn)| >= 1
  {
    if i > 0 {
      MatchingKeysAtLeastOne(rules[1..], matchFn, i - 1);
    }
  }

  /** A single matching key's position, when exactly one key matches. */
  lemma {:induction false} MatchingKeysSingle(rules: GenderTable, matchFn: string -> bool) returns (i: int)
    requires |MatchingKeys(rules, matchFn)| == 1
    ensures SoleMatch(rules, matchFn, i) && MatchingKeys(rules, matchFn) == [rules[i].key]
  {
    if EntryMatches(rules[0], matchFn) {
      i := 0;
      if j :| 0 < j < |rules| && EntryMatches(rules[j], matchFn) {
        MatchingKeysTwo(rules, matchFn, 0, j);
      }
    } else {
      var k := MatchingKeysSingle(rules[1..], matchFn);
      i := k + 1;
    }
  }

  /** Exactly one matching key: its normalised gender is the result. */
  lemma GenderByRuleSole(rules: GenderTable, matchFn: string -> bool, i: int)
    requires SoleMatch(rules, matchFn, i)
    ensures GetGenderByRule(rules, matchFn) == GetGenderConst(Name(rules[i].key))
  {
    MatchingKeysSole(rules, matchFn, i);
  }

  /** Two matching keys: no determination. */
  lemma GenderByRuleAmbiguous(rules: GenderTable, matchFn: string -> bool, i: int, j: int)
    requires 0 <= i < j < |rules|
    requires EntryMatches(rules[i], matchFn) && EntryMatches(rules[j], matchFn)
    ensures GetGenderByRule(rules, matchFn).None?
  {
    MatchingKeysTwo(rules, matchFn, i, j);
  }

  /** No matching key: no determination. */
  lemma GenderByRuleNoMatch(rules: GenderTable, matchFn: string -> bool)
    requires forall j :: 0 <= j < |rules| ==> !EntryMatches(rules[j], matchFn)
    ensures GetGenderByRule(rules, matchFn).None?
  {
    MatchingKeysNone(rules, matchFn);
  }

  /** A determined gender always comes from the one key that matches, and is that key's gender. */
  lemma GenderByRuleDetermined(rules: GenderTable, matchFn: string -> bool) returns (i: int)
    requires GetGenderByRule(rules, matchFn).Some?
    ensures SoleMatch(rules, matchFn, i)
    ensures GetGenderByRule(rules, matchFn) == GetGenderConst(Name(rules[i].key))
  {
    i := MatchingKeysSingle(rules, matchFn);
  }

  /**
    The exception-table test: a pattern starting with `-` asks whether the name ends
    with the rest of the pattern; any other pattern must equal the name.
   */
  function ExceptionMatch(lower: string): (f: string -> bool)
    ensures forall p :: f(p) <==> if |p| > 0 && p[0] == '-' then EndsWith(lower, p[1..]) else p == lower
  {
    p => if StartsWith(p, "-", None) then EndsWith(lower, p[1..]) else p == lower
  }

  /** The gender the exception table determines for a lower-cased name, if any. */
  function GenderFromExceptions(rs: GenderRuleSet, lower: string): Option<int> {
    if rs.exceptions.Some? then GetGenderByRule(rs.exceptions.value, ExceptionMatch(lower)) else None
  }

  /** The gender the suffix table determines for a lower-cased name, if any. */
  function GenderFromSuffixes(rs: GenderRuleSet, lower: string): Option<int> {
    if rs.suffixes.Some? then GetGenderByRule(rs.suffixes.value, SuffixMatch(lower)) else None
  }

  /** `getGenderByRuleSet(name, ruleSet)`. */
  function GetGenderByRuleSet(name: string, ruleSet: Option<GenderRuleSet>): (r: Option<int>)
    ensures IsEmpty(name) || ruleSet.None? ==> r.None?
    ensures r.Some? ==> IsGender(r.value)
  {
    if IsEmpty(name) || ruleSet.None? then None
    else
      var lower := Lower(name);
      var fromExceptions := GenderFromExceptions(ruleSet.value, lower);
      if fromExceptions.Some? then fromExceptions
      else GenderFromSuffixes(ruleSet.value, lower)
  }

  /** A sole exception match on a key that names a gender decides the gender, whatever the suffix table says. */
  lemma ExceptionsOverrideSuffixes(name: string, rs: GenderRuleSet, i: int)
    requires !IsEmpty(name) && rs.exceptions.Some?
    requires SoleMatch(rs.exceptions.value, ExceptionMatch(Lower(name)), i)
    requires GetGenderConst(Name(rs.exceptions.value[i].key)).Some?
    ensures GetGenderByRuleSet(name, Some(rs)) == GetGenderConst(Name(rs.exceptions.value[i].key))
  {
    GenderByRuleSole(rs.exceptions.value, ExceptionMatch(Lower(name)), i);
  }

  /**
    When no exception key is the sole match with a gender name, the suffix table
    decides.
   */
  lemma GenderFromSuffixesOtherwise(name: string, rs: GenderRuleSet)
    requires !IsEmpty(name)
    requires rs.exceptions.Some? ==>
               forall i :: SoleMatch(rs.exceptions.value, ExceptionMatch(Lower(name)), i) ==>
                 GetGenderConst(Name(rs.exceptions.value[i].key)).None?
    ensures GetGenderByRuleSet(name, Some(rs)) == GenderFromSuffixes(rs, Lower(name))
  {
    if GenderFromExceptions(rs, Lower(name)).Some? {
      var i := GenderByRuleDetermined(rs.exceptions.value, ExceptionMatch(Lower(name)));
    }
  }

  /** Two suffix keys matching a name the exceptions leave open give no determination. */
  lemma AmbiguousSuffixesGiveNull(name: string, rs: GenderRuleSet, i: int, j: int)
    requires !IsEmpty(name) && rs.suffixes.Some?
    requires GenderFromExceptions(rs, Lower(name)).None?
    requires 0 <= i < j < |rs.suffixes.value|
    requires EntryMatches(rs.suffixes.value[i], SuffixMatch(Lower(name)))
    requires EntryMatches(rs.suffixes.value[j], SuffixMatch(Lower(name)))
    ensures GetGenderByRuleSet(name, Some(rs)).None?
  {
    GenderByRuleAmbiguous(rs.suffixes.value, SuffixMatch(Lower(name)), i, j);
  }

  /** A determined gender comes from a sole matching key of the exceptions or, failing that, of the suffixes. */
  lemma GenderByRuleSetDetermined(name: string, rs: GenderRuleSet) returns (i: int)
    requires GetGenderByRuleSet(name, Some(rs)).Some?
    ensures || (&& rs.exceptions.Some?
                && SoleMatch(rs.exceptions.value, ExceptionMatch(Lower(name)), i)
                && GetGenderByRuleSet(name, Some(rs)) == GetGenderConst(Name(rs.exceptions.value[i].key)))
            || (&& rs.suffixes.Some?
                && SoleMatch(rs.suffixes.value, SuffixMatch(Lower(name)), i)
                && GetGenderByRuleSet(name, Some(rs)) == GetGenderConst(Name(rs.suffixes.value[i].key)))
  {
    var lower := Lower(name);
    if GenderFromExceptions(rs, lower).Some? {
      i := GenderByRuleDetermined(rs.exceptions.value, ExceptionMatch(lower));
    } else {
      i := GenderByRuleDetermined(rs.suffixes.value, SuffixMatch(lower));
    }
  }
}

=== FILE: mods.dfy ===
/**
  The modification interpreter: an edit script is read left to right over an
  accumulator that starts as the input string. `.` does nothing, `-` drops the
  last character of the accumulator (nothing when it is empty), and any other
  character is appended.
 */
module Mods {

  const NoOp: char := '.'
  const Drop: char := '-'

  /** The accumulator after one more token of the script. */
  function Step(acc: string, c: char): (r: string)
    ensures c == NoOp ==> r == acc
    ensures c == Drop ==> (|acc| == 0 ==> r == "") && (|acc| > 0 ==> r + [acc[|acc| - 1]] == acc)
    ensures c != NoOp && c != Drop ==> |r| == |acc| + 1 && r[..|acc|] == acc && r[|acc|] == c
  {
    if c == NoOp then acc
    else if c == Drop then (if |acc| == 0 then acc else acc[..|acc| - 1])
    else acc + [c]
  }

  /** `applyMod(str, mod)`: the accumulator after the whole script. */
  function ApplyMod(s: string, m: string): (r: string)
    ensures |r| <= |s| + |m|
    decreases |m|
  {
    if |m| == 0 then s
    else
      Step(ApplyMod(s, m[..|m| - 1]), m[|m| - 1])
  }

  /** Every character of the result comes from the input or is a literal of the script. */
  lemma {:induction false} ApplyModProvenance(s: string, m: string)
    ensures forall c :: c in ApplyMod(s, m) ==> c in s || (c in m && c != NoOp && c != Drop)
    decreases |m|
  {
    if |m| > 0 {
      var prefix := m[..|m| - 1];
      ApplyModProvenance(s, prefix);
      assert forall c :: c in prefix ==> c in m;
      var acc := ApplyMod(s, prefix);
      var c := m[|m| - 1];
      if c == Drop && |acc| > 0 {
        assert forall x :: x in acc[..|acc| - 1] ==> x in acc;
      }
    }
  }

  /** The interpreter never introduces a hyphen: a hyphen-free input gives a hyphen-free output. */
  lemma ApplyModKeepsHyphenFree(s: string, m: string)
    requires Drop !in s
    ensures Drop !in ApplyMod(s, m)
  {
    ApplyModProvenance(s, m);
  }

  /** Running two scripts one after the other is running their concatenation. */
  lemma {:induction false} ApplyModCompose(s: string, m1: string, m2: string)
    ensures ApplyMod(s, m1 + m2) == ApplyMod(ApplyMod(s, m1), m2)
    decreases |m2|
  {
    if |m2| == 0 {
      assert m1 + m2 == m1;
    } else {
      var m := m1 + m2;
      assert m[..|m| - 1] == m1 + m2[..|m2| - 1];
      assert m[|m| - 1] == m2[|m2| - 1];
      ApplyModCompose(s, m1, m2[..|m2| - 1]);
    }
  }

  /** The no-op token leaves every string unchanged. */
  lemma ApplyModNoOp(s: string)
    ensures ApplyMod(s, [NoOp]) == s
  {
    assert [NoOp][..0] == "";
  }

  /** One deletion removes exactly the last character, and is harmless on the empty string. */
  lemma ApplyModDrop(s: string)
    ensures |s| > 0 ==> ApplyMod(s, [Drop]) == s[..|s| - 1]
    ensures |s| == 0 ==> ApplyMod(s, [Drop]) == ""
  {
    assert [Drop][..0] == "";
  }

  /** Any other character is appended. */
  lemma ApplyModAppend(s: string, c: char)
    requires c != NoOp && c != Drop
    ensures ApplyMod(s, [c]) == s + [c]
  {
    assert [c][..0] == "";
  }

  /** `s` with its last `k` characters removed (all of them when `k >= |s|`). */
  function DropLast(s: string, k: nat): (r: string)
    ensures |r| == if k >= |s| then 0 else |s| - k
    ensures r == s[..|r|]
  {
    if k >= |s| then "" else s[..|s| - k]
  }

  /**
    What a script does, independently of the string it is applied to: the number
    of characters it removes from the input, and the text it leaves after them.
   */
  datatype Net = Net(drops: nat, tail: string)

  /** The net effect after one more token. */
  function NetStep(n: Net, c: char): Net {
    if c == NoOp then n
    else if c == Drop then
      (if |n.tail| == 0 then Net(n.drops + 1, "") else Net(n.drops, n.tail[..|n.tail| - 1]))
    else Net(n.drops, n.tail + [c])
  }

  function NetEffect(m: string): (n: Net)
    ensures |n.tail| <= |m|
    decreases |m|
  {
    if |m| == 0 then Net(0, "") else NetStep(NetEffect(m[..|m| - 1]), m[|m| - 1])
  }

  /** One token acts on "drop, then append" the way `NetStep` says. */
  lemma NetStepSound(s: string, n: Net, c: char)
    ensures Step(DropLast(s, n.drops) + n.tail, c) == DropLast(s, NetStep(n, c).drops) + NetStep(n, c).tail
  {
    var kept := DropLast(s, n.drops);
    var acc := kept + n.tail;
    if c == Drop {
      if |n.tail| > 0 {
        assert acc[..|acc| - 1] == kept + n.tail[..|n.tail| - 1];
      } else if |kept| > 0 {
        assert acc[..|acc| - 1] == DropLast(s, n.drops + 1);
      }
    } else if c != NoOp {
      assert acc + [c] == kept + (n.tail + [c]);
    }
  }

  /**
    Normal form of an edit script: applying `m` to any `s` removes the same number of
    trailing characters from `s` and then appends the same text.
   */
  lemma {:induction false} ApplyModNormalForm(s: string, m: string)
    ensures ApplyMod(s, m) == DropLast(s, NetEffect(m).drops) + NetEffect(m).tail
    decreases |m|
  {
    if |m| > 0 {
      var prefix := m[..|m| - 1];
      ApplyModNormalForm(s, prefix);
      NetStepSound(s, NetEffect(prefix), m[|m| - 1]);
    }
  }

  /** A script without `.` and `-` just appends itself. */
  lemma {:induction false} ApplyModLiteral(s: string, m: string)
    requires NoOp !in m && Drop !in m
    ensures ApplyMod(s, m) == s + m
    decreases |m|
  {
    if |m| > 0 {
      var prefix := m[..|m| - 1];
      assert forall c :: c in prefix ==> c in m;
      ApplyModLiteral(s, prefix);
      assert s + m == (s + prefix) + [m[|m| - 1]];
    }
  }

  /** Reading the first token, then the rest of the script. */
  lemma ApplyModCons(s: string, c: char, m: string)
    ensures ApplyMod(s, [c] + m) == ApplyMod(Step(s, c), m)
  {
    ApplyModCompose(s, [c], m);
    assert [c][..0] == "";
  }

  /** `k` deletion tokens. */
  function Drops(k: nat): (m: string)
    ensures |m| == k
  {
    if k == 0 then "" else [Drop] + Drops(k - 1)
  }

  /** Peeling the first of `k` deletions off a drops-then-append script. */
  lemma ApplyModFirstDrop(s: string, k: nat, t: string)
    requires k > 0
    ensures ApplyMod(s, Drops(k) + t) == ApplyMod(Step(s, Drop), Drops(k - 1) + t)
  {
    assert Drops(k) + t == [Drop] + (Drops(k - 1) + t);
    ApplyModCons(s, Drop, Drops(k - 1) + t);
  }

  lemma ApplyModNoDrops(s: string, t: string)
    requires NoOp !in t && Drop !in t
    ensures ApplyMod(s, Drops(0) + t) == DropLast(s, 0) + t
  {
    assert Drops(0) + t == t;
    ApplyModLiteral(s, t);
  }

  lemma DropLastStep(s: string, k: nat)
    requires k > 0
    ensures DropLast(Step(s, Drop), k - 1) == DropLast(s, k)
  {
  }

  /**
    The shape the rule tables use: `k` deletions followed by an ending strips `k`
    characters from the name and appends the ending.
   */
  lemma {:induction false} ApplyModDropsThenAppend(s: string, k: nat, t: string)
    requires NoOp !in t && Drop !in t
    ensures ApplyMod(s, Drops(k) + t) == DropLast(s, k) + t
  {
    if k == 0 {
      ApplyModNoDrops(s, t);
    } else {
      ApplyModFirstDrop(s, k, t);
      ApplyModDropsThenAppend(Step(s, Drop), k - 1, t);
      DropLastStep(s, k);
    }
  }
}

=== FILE: rules.dfy ===
/**
  Declension rules, the first-match rule selector, and the application of a
  rule's modification for a given case.
 */
module Rules {
  import opened Wrappers
  import opened Constants
  import opened Mods

  /**
    A declension rule: the gender it is for, its match patterns, its five
    modifications (GENITIVE..PREPOSITIONAL) and its optional tag labels.
    `mods == None` is a rule without a `mods` array; `tags == None` is a rule
    without `tags` (it is not filtered by tag).
   */
  datatype DeclensionRule = DeclensionRule(
    gender: int,
    test: seq<string>,
    mods: Option<seq<string>>,
    tags: Option<seq<string>>)

  /** The first of `ruleTags` that also occurs in `tags`: `rule.tags.find(t => tags.indexOf(t) !== -1)`. */
  function FindCommonTag(ruleTags: seq<string>, tags: seq<string>): (r: Option<string>)
    ensures r.Some? ==> r.value in ruleTags && r.value in tags
    ensures r.Some? ==> exists i :: 0 <= i < |ruleTags| && ruleTags[i] == r.value && forall j :: 0 <= j < i ==> ruleTags[j] !in tags
    ensures r.None? <==> forall t :: t in ruleTags ==> t !in tags
  {
    if |ruleTags| == 0 then None
    else if ruleTags[0] in tags then Some(ruleTags[0])
    else FindCommonTag(ruleTags[1..], tags)
  }

  /**
    The tag filter. A rule without tags always passes. A rule with tags passes when
    the tag `find` returns is truthy, that is, a common tag exists and the first one
    is not the empty string.
   */
  predicate TagsAdmit(rule: DeclensionRule, tags: seq<string>) {
    match rule.tags
    case None => true
    case Some(ts) => var t := FindCommonTag(ts, tags); t.Some? && t.value != ""
  }

  /** The gender filter: ANDROGYNOUS rules serve every request, others only their own gender. */
  predicate GenderAdmits(rule: DeclensionRule, gender: Option<int>) {
    rule.gender == ANDROGYNOUS || gender == Some(rule.gender)
  }

  /** Some match pattern of the rule satisfies the predicate. */
  predicate PatternMatches(rule: DeclensionRule, matchFn: string -> bool) {
    exists j :: 0 <= j < |rule.test| && matchFn(rule.test[j])
  }

  predicate Eligible(rule: DeclensionRule, gender: Option<int>, matchFn: string -> bool, tags: seq<string>) {
    TagsAdmit(rule, tags) && GenderAdmits(rule, gender) && PatternMatches(rule, matchFn)
  }

  /** When no tag label is empty, the tag filter is "some declared tag is requested". */
  lemma TagsAdmitNonEmptyLabels(rule: DeclensionRule, tags: seq<string>)
    requires rule.tags.Some?
    requires forall t :: t in rule.tags.value ==> t != ""
    ensures TagsAdmit(rule, tags) <==> exists t :: t in rule.tags.value && t in tags
  {
  }

  /** `findExactRule`: the first rule, in order, that passes all three filters; null when none does. */
  function FindExactRule(rules: seq<DeclensionRule>, gender: Option<int>, matchFn: string -> bool, tags: seq<string>)
    : (r: Option<DeclensionRule>)
    ensures r.Some? ==> r.value in rules && Eligible(r.value, gender, matchFn, tags)
    ensures r.None? <==> forall j :: 0 <= j < |rules| ==> !Eligible(rules[j], gender, matchFn, tags)
  {
    if |rules| == 0 then None
    else if Eligible(rules[0], gender, matchFn, tags) then Some(rules[0])
    else FindExactRule(rules[1..], gender, matchFn, tags)
  }

  /** First match wins: the result is the eligible rule that no eligible rule precedes. */
  lemma {:induction false} FindExactRuleFirstMatch(
    rules: seq<DeclensionRule>, gender: Option<int>, matchFn: string -> bool, tags: seq<string>, i: nat)
    requires i < |rules| && Eligible(rules[i], gender, matchFn, tags)
    requires forall j :: 0 <= j < i ==> !Eligible(rules[j], gender, matchFn, tags)
    ensures FindExactRule(rules, gender, matchFn, tags) == Some(rules[i])
  {
    if i > 0 {
      assert rules[1..][i - 1] == rules[i];
      FindExactRuleFirstMatch(rules[1..], gender, matchFn, tags, i - 1);
    }
  }

  /** With no requested tags, a rule that declares tags is never selected. */
  lemma UntaggedRequestSkipsTaggedRules(
    rules: seq<DeclensionRule>, gender: Option<int>, matchFn: string -> bool)
    ensures FindExactRule(rules, gender, matchFn, []).Some? ==> FindExactRule(rules, gender, matchFn, []).value.tags.None?
  {
  }

  /** The rules that declare no tags, in their original order. */
  function Untagged(rules: seq<DeclensionRule>): (r: seq<DeclensionRule>)
    ensures forall x :: x in r <==> x in rules && x.tags.None?
  {
    if |rules| == 0 then []
    else if rules[0].tags.None? then [rules[0]] + Untagged(rules[1..])
    else Untagged(rules[1..])
  }

  /** With no requested tags, the selection is the same once all tagged rules are removed. */
  lemma {:induction false} FindExactRuleUntagged(
    rules: seq<DeclensionRule>, gender: Option<int>, matchFn: string -> bool)
    ensures FindExactRule(rules, gender, matchFn, []) == FindExactRule(Untagged(rules), gender, matchFn, [])
  {
    if |rules| > 0 {
      FindExactRuleUntagged(rules[1..], gender, matchFn);
      if rules[0].tags.None? {
        assert ([rules[0]] + Untagged(rules[1..]))[1..] == Untagged(rules[1..]);
      } else {
        assert !TagsAdmit(rules[0], []);
      }
    }
  }

  /**
    `getModByIdx(mods, i)`: the bound check is `mods.length >= i`, so `i == |mods|`
    passes it and yields `undefined` (here `None`); a missing array or a larger
    index gives the no-op token.
   */
  function GetModByIdx(mods: Option<seq<string>>, i: nat): (r: Option<string>)
    ensures mods.Some? && i < |mods.value| ==> r == Some(mods.value[i])
    ensures r.None? <==> mods.Some? && i == |mods.value|
    ensures mods.None? || i > |mods.value| ==> r == Some([NoOp])
  {
    if mods.Some? && |mods.value| >= i then
      (if i < |mods.value| then Some(mods.value[i]) else None)
    else Some([NoOp])
  }

  /** The case codes that select a modification, GENITIVE..PREPOSITIONAL. */
  predicate IsOblique(declension: Option<int>) {
    declension.Some? && GENITIVE <= declension.value <= PREPOSITIONAL
  }

  /** The modification `applyRule` selects for a case: NOMINATIVE and unknown cases give the no-op. */
  function ModFor(rule: DeclensionRule, declension: Option<int>): Option<string> {
    match declension
    case Some(d) =>
      if d == NOMINATIVE then Some([NoOp])
      else if d == GENITIVE then GetModByIdx(rule.mods, 0)
      else if d == DATIVE then GetModByIdx(rule.mods, 1)
      else if d == ACCUSATIVE then GetModByIdx(rule.mods, 2)
      else if d == INSTRUMENTAL then GetModByIdx(rule.mods, 3)
      else if d == PREPOSITIONAL then GetModByIdx(rule.mods, 4)
      else Some([NoOp])
    case None => Some([NoOp])
  }

  /**
    `applyRule(rule, str, declension)`. `None` is the TypeError the source raises when
    the selected modification is `undefined` (its `length` is read).
   */
  function ApplyRule(rule: DeclensionRule, s: string, declension: Option<int>): (r: Option<string>)
    ensures !IsOblique(declension) ==> r == Some(s)
    ensures r.None? <==> IsOblique(declension) && rule.mods.Some? && |rule.mods.value| == declension.value - GENITIVE
    ensures IsOblique(declension) && rule.mods.Some? && declension.value - GENITIVE < |rule.mods.value|
            ==> r == Some(ApplyMod(s, rule.mods.value[declension.value - GENITIVE]))
    ensures IsOblique(declension) && (rule.mods.None? || declension.value - GENITIVE > |rule.mods.value|)
            ==> r == Some(s)
  {
    match ModFor(rule, declension)
    case None => None
    case Some(m) => ApplyModNoOp(s); Some(ApplyMod(s, m))
  }

  /** Applying a rule to a hyphen-free string gives a hyphen-free string. */
  lemma ApplyRuleKeepsHyphenFree(rule: DeclensionRule, s: string, declension: Option<int>)
    ensures Drop !in s && ApplyRule(rule, s, declension).Some? ==> Drop !in ApplyRule(rule, s, declension).value
  {
    if Drop !in s && IsOblique(declension) && rule.mods.Some? && declension.value - GENITIVE < |rule.mods.value| {
      ApplyModKeepsHyphenFree(s, rule.mods.value[declension.value - GENITIVE]);
    }
  }
}

=== FILE: strings.dfy ===
/**
  String primitives of the engine: the suffix and prefix tests, lower-casing,
  and splitting and joining a name on the hyphen.
 */
module Strings {
  import opened Wrappers

  /**
    `endsWith(str, search)`: the slice of `str` from `|str| - |search|` (clamped at 0,
    as JavaScript's `substring` does) to the end is compared with `search`.
   */
  function EndsWith(s: string, t: string): (r: bool)
    ensures r ==> |t| <= |s|
    ensures |t| == 0 ==> r
  {
    var start := if |s| - |t| < 0 then 0 else |s| - |t|;
    s[start..] == t
  }

  /** Any string ends with what was appended to it. */
  lemma EndsWithConcat(x: string, t: string)
    ensures EndsWith(x + t, t)
  {
    assert (x + t)[|x|..] == t;
  }

  /** Conversely, a string that ends with `t` is something followed by `t`. */
  lemma EndsWithSplits(s: string, t: string)
    requires EndsWith(s, t)
    ensures s == s[..|s| - |t|] + t
  {
  }

  /** The start position `startsWith` uses: a missing, zero or negative position counts as 0. */
  function StartPosition(pos: Option<int>): nat {
    if pos.None? || pos.value <= 0 then 0 else pos.value
  }

  /**
    `startsWith(str, search, pos)`: JavaScript's `substr(start, |search|)` clamps the
    slice to the end of `str`; the slice is compared with `search`.
   */
  function StartsWith(s: string, t: string, pos: Option<int>): (r: bool)
    ensures r <==> |t| == 0 || (StartPosition(pos) + |t| <= |s| && s[StartPosition(pos)..StartPosition(pos) + |t|] == t)
  {
    var start := StartPosition(pos);
    var from := if start > |s| then |s| else start;
    var to := if from + |t| > |s| then |s| else from + |t|;
    var slice := s[from..to];
    assert from + |t| > |s| ==> |slice| < |t|;
    slice == t
  }

  /** A missing, zero or negative position searches from the start. */
  lemma StartsWithNonPositive(s: string, t: string, p: int)
    requires p <= 0
    ensures StartsWith(s, t, Some(p)) == StartsWith(s, t, None)
  {
  }

  /**
    A positive position searches the rest of the string from that position on
    (nothing is left when it lies past the end).
   */
  lemma StartsWithAt(s: string, t: string, p: int)
    requires p > 0
    ensures StartsWith(s, t, Some(p)) == StartsWith(s[(if p < |s| then p else |s|)..], t, None)
  {
    var rest := s[(if p < |s| then p else |s|)..];
    if p + |t| <= |s| {
      assert rest[..|t|] == s[p..p + |t|];
    }
  }

  /** A string starts with each of its prefixes. */
  lemma StartsWithConcat(x: string, y: string)
    ensures StartsWith(x + y, x, None)
  {
    assert (x + y)[..|x|] == x;
  }

  /**
    Lower-casing of one character over the alphabet the model covers: ASCII
    `A`..`Z` and the Cyrillic capitals U+0400..U+042F. Other characters are kept.
   */
  function LowerChar(c: char): (d: char)
    ensures ('A' <= c <= 'Z') ==> 'a' <= d <= 'z'
    ensures !('A' <= c <= 'Z') && !('\U{0400}' <= c <= '\U{042F}') ==> d == c
  {
    if 'A' <= c <= 'Z' then (c as int + 32) as char
    else if '\U{0410}' <= c <= '\U{042F}' then (c as int + 0x20) as char
    else if '\U{0400}' <= c <= '\U{040F}' then (c as int + 0x50) as char
    else c
  }

  /** `toLowerCase` over the modelled alphabet. */
  function Lower(s: string): (r: string)
    ensures |r| == |s|
  {
    if |s| == 0 then "" else [LowerChar(s[0])] + Lower(s[1..])
  }

  /** Lower-casing works character by character. */
  lemma {:induction false} LowerPointwise(s: string)
    ensures forall i :: 0 <= i < |s| ==> Lower(s)[i] == LowerChar(s[i])
  {
    if |s| > 0 {
      LowerPointwise(s[1..]);
      assert forall i :: 1 <= i < |s| ==> Lower(s)[i] == Lower(s[1..])[i - 1];
    }
  }

  /** `t` is the lower-cased `s` when it is so character by character. */
  lemma LowerIs(s: string, t: string)
    requires |s| == |t| && forall i :: 0 <= i < |s| ==> LowerChar(s[i]) == t[i]
    ensures Lower(s) == t
  {
    LowerPointwise(s);
  }

  lemma LowerCharIdempotent(c: char)
    ensures LowerChar(LowerChar(c)) == LowerChar(c)
  {
  }

  /** Lower-casing twice is lower-casing once. */
  lemma {:induction false} LowerIdempotent(s: string)
    ensures Lower(Lower(s)) == Lower(s)
  {
    if |s| > 0 {
      LowerIdempotent(s[1..]);
      LowerCharIdempotent(s[0]);
      assert Lower(s)[1..] == Lower(s[1..]);
    }
  }

  /** The empty string, as a name, is the one JavaScript treats as false. */
  predicate IsEmpty(s: string) {
    |s| == 0
  }

  /** `str.split('-')`: the hyphen-separated segments, always at least one. */
  function Split(s: string): (ps: seq<string>)
    ensures |ps| >= 1
    ensures forall i :: 0 <= i < |ps| ==> '-' !in ps[i]
  {
    if |s| == 0 then [""]
    else
      var rest := Split(s[1..]);
      if s[0] == '-' then [""] + rest
      else [[s[0]] + rest[0]] + rest[1..]
  }

  /** `parts.join('-')`. */
  function Join(ps: seq<string>): string {
    if |ps| == 0 then ""
    else if |ps| == 1 then ps[0]
    else ps[0] + "-" + Join(ps[1..])
  }

  /** The number of hyphens in a string. */
  function Hyphens(s: string): nat {
    if |s| == 0 then 0 else (if s[0] == '-' then 1 else 0) + Hyphens(s[1..])
  }

  lemma JoinCons(p: string, ps: seq<string>)
    requires |ps| >= 1
    ensures Join([p] + ps) == p + "-" + Join(ps)
  {
    assert ([p] + ps)[1..] == ps;
  }

  /** Joining the segments of a split gives back the original string. */
  lemma {:induction false} JoinSplit(s: string)
    ensures Join(Split(s)) == s
  {
    if |s| > 0 {
      var rest := Split(s[1..]);
      JoinSplit(s[1..]);
      if s[0] == '-' {
        JoinCons("", rest);
        assert s == [s[0]] + s[1..];
      } else {
        var ps := [[s[0]] + rest[0]] + rest[1..];
        if |rest| == 1 {
          assert Join(ps) == [s[0]] + rest[0];
        } else {
          JoinCons([s[0]] + rest[0], rest[1..]);
          JoinCons(rest[0], rest[1..]);
          assert rest == [rest[0]] + rest[1..];
        }
        assert s == [s[0]] + s[1..];
      }
    }
  }

  /** A string splits into one more segment than it has hyphens. */
  lemma {:induction false} SplitCount(s: string)
    ensures |Split(s)| == Hyphens(s) + 1
  {
    if |s| > 0 {
      SplitCount(s[1..]);
    }
  }

  /** A hyphen-free string followed by a hyphen splits off as the first segment. */
  lemma {:induction false} SplitAfterSegment(p: string, t: string)
    requires '-' !in p
    ensures Split(p + "-" + t) == [p] + Split(t)
  {
    if |p| == 0 {
      assert ("" + "-" + t)[1..] == t;
    } else {
      SplitAfterSegment(p[1..], t);
      var s := p + "-" + t;
      assert s[0] == p[0] && s[1..] == p[1..] + "-" + t;
      var rest := Split(s[1..]);
      assert rest == [p[1..]] + Split(t);
      assert rest[0] == p[1..] && rest[1..] == Split(t);
      assert [p[0]] + p[1..] == p;
    }
  }

  /** A hyphen-free string is a single segment. */
  lemma {:induction false} SplitSegment(p: string)
    requires '-' !in p
    ensures Split(p) == [p]
  {
    if |p| > 0 {
      SplitSegment(p[1..]);
      assert p == [p[0]] + p[1..];
    }
  }

  /** Splitting a join of hyphen-free segments gives back the segments. */
  lemma {:induction false} SplitJoin(ps: seq<string>)
    requires |ps| >= 1
    requires forall i :: 0 <= i < |ps| ==> '-' !in ps[i]
    ensures Split(Join(ps)) == ps
  {
    if |ps| == 1 {
      SplitSegment(ps[0]);
    } else {
      SplitJoin(ps[1..]);
      SplitAfterSegment(ps[0], Join(ps[1..]));
      assert ps == [ps[0]] + ps[1..];
    }
  }

  /** Whole-string equality with an already lower-cased name, the test of exception patterns. */
  function ExactMatch(lower: string): string -> bool {
    p => p == lower
  }

  /** Suffix test against an already lower-cased name, the test of suffix patterns. */
  function SuffixMatch(lower: string): string -> bool {
    p => EndsWith(lower, p)
  }
}

=== FILE: wrappers.dfy ===
/** Optional values. `None` stands for JavaScript's `null` or `undefined`. */
module Wrappers {

  datatype Option<+T> = None | Some(value: T)
}
